=== FILE: README.md ===
# House-data scraper core in Dafny

This project models the sequential logic of a small data-collection utility. The utility has four parts:

- a `Scraper` fetches pages over HTTP or through a Chrome browser, with retries and a random user agent;
- a `MySQLDatabase` connects with retries and writes records through parameterised `INSERT` / `REPLACE` statements;
- a `Logger` and its `log_decorator` wrap every public method with start, finish and error records;
- the Beijing city script turns the selected table rows of a page into a key→value dict.

The network and database calls are replaced by oracles: total functions from the attempt or call number to how that attempt or call ends. This covers `requests.get/post`, the Selenium driver and `pymysql`. The file-system outcomes of `setup_logging` and today's date are plain parameters. A `time.sleep` is recorded in the trace as its kind, and the draws of `random.choice` are index parameters. Each operation then becomes a pure function that returns its result together with a trace of what it did: the attempts and sleeps of a retry loop, or the driver calls of a write method.

Modules:

- `Common`: `Option` and the exception kinds (`Exc`) the code raises, catches or lets through.
- `Text`: the Python string operations used.
  - `', '.join`, `[x] * n` and `str.strip()`.
  - Readers (`Cut`, `After`, `Split`) that show what the built text contains.
- `Retry`: the one loop shape shared by `fetch_page` (both branches), `post_page` and `connect`.
  - A `Policy` fixes the sleep before returning a result, the sleep after a handled failure, and whether the final failure gives up or re-raises.
  - A step can also fail late, after the sleep before returning was taken; this is how the second `page_source` read of the Selenium branch fails.
  - `Attempts` states where its outcome comes from, and `AttemptsDescribed` describes it round by round: every round but the last handed over to the next one and slept as its step asks, and the last round decides the outcome and its sleeps.
- `UserAgent`: the catalog behind `_random_user_agent`, with the random draws as indices, plus a reader for the generated string.
- `Scraper`: construction, the request helpers, `fetch_page`, `post_page`, `close`, and `post_page` and `fetch_page` seen through the decorator.
- `Logging`: the root-logger threshold, the three level helpers, `setup_logging` as a function of its faults, and the decorator as a trace transformer.
- `Sql`: the statement text and a reader that recovers table, columns and placeholders from it.
- `Database`: `connect`, the four write methods and `disconnect` as call traces over a failure oracle.
- `Beijing`: the row-extraction loop, its reference definition and its properties.

## Model

| member | source | states |
|---|---|---|
| Text.Strip | src/models/city/bj.py:23-24 | `str.strip()` removes exactly the leading whitespace run and the trailing whitespace run; the result neither starts nor ends with whitespace |
| Text.SpaceRunEnd | src/models/city/bj.py:23-24 | the scan from a position stops at the first non-whitespace character, or at the end |
| Text.SpaceRunStart | src/models/city/bj.py:23-24 | the backward scan from a position stops just after the last non-whitespace character, or at the start |
| Text.StripIdempotent | src/models/city/bj.py:23-24 | stripping an already stripped cell changes nothing |
| Text.SplitJoin | src/models/mysql_database.py:53 | `', '.join` of at least one comma-free name is read back, name by name, by splitting at the separators |
| Text.Join | src/models/mysql_database.py:53 | `', '.join` itself; it has no contract of its own, and what it holds is stated by Text.SplitJoin |
| Text.Repeat | src/models/mysql_database.py:54 | `['%s'] * n` has length n and every element is `%s` |
| Retry.Attempts | src/models/scraper.py:125-135 | the loop makes at most `max_retries` attempts, none exactly when it is not positive, each with the same request; a result comes only from the last attempt's step; an exception only from the last attempt's failure, and under a give-up policy only an unhandled one |
| Retry.AttemptsDescribed | src/models/scraper.py:125-146 | round by round: every attempt but the last handed over and slept as its step asks, the last did not hand over, and its step decides the outcome and its sleeps |
| Retry.Loop | src/models/scraper.py:125 | iterations `i` to `n - 1` make at most `n - i` attempts, and none exactly when no iteration is left |
| Retry.LoopRequests | src/models/scraper.py:125-128 | every attempt of the loop sends the same request |
| Retry.LoopDescribed | src/models/scraper.py:125-146 | the loop from its first iteration fits the round-by-round description |
| Retry.LoopPrefix | src/models/scraper.py:125-135 | every round before the last is a non-final attempt with an empty result or a handled failure, followed by no sleep or the failure sleep respectively |
| Retry.LoopLast | src/models/scraper.py:129-135 | the last round is an attempt that did not hand over; it returns the result, falls through to None, gives up, re-raises or lets an unhandled exception out |
| Retry.FirstDoneWins | src/models/scraper.py:125-131 | the first attempt with a result ends the loop with that result after exactly that many attempts; the rounds before it slept as their steps asked, and it is followed by the sleep-before-return |
| Retry.FirstEscapeRaises | src/models/mysql_database.py:33-44 | the first exception no except clause handles propagates at once, with no sleep after it |
| Retry.AllCaught | src/models/scraper.py:132-135 | when every attempt fails with a handled exception there are exactly `max_retries` attempts, a failure sleep after all but the last, then None or the last exception |
| Retry.NeverDone | src/models/scraper.py:125-147 | when every attempt yields empty content there are exactly `max_retries` attempts, no sleep at all, and the fall-through None |
| UserAgent.Pick | src/models/scraper.py:66-108 | the drawn OS, OS version, browser and version all come from the catalog lists for that OS and browser |
| UserAgent.RandomUserAgent | src/models/scraper.py:110 | the user agent reads back as exactly the drawn OS name, OS version and browser version |
| UserAgent.Format | src/models/scraper.py:110 | the f-string itself; it has no contract of its own, and what it holds is stated by UserAgent.ParseFormat |
| UserAgent.FormatFrame | src/models/scraper.py:110 | the generated string is the fixed head, the `os; os_version) AppleWebKit… Chrome/version` middle, and the fixed Safari tail |
| UserAgent.ParseFormat | src/models/scraper.py:110 | the fixed `Mozilla/5.0 (…; …) AppleWebKit/537.36 (KHTML, like Gecko) Chrome/… Safari/537.36` frame can be read back into its three parts |
| UserAgent.CatalogParses | src/models/scraper.py:66-100 | no catalog OS name contains `;` and no catalog OS version contains `)` |
| UserAgent.OsNameReadable | src/models/scraper.py:66 | none of the OS names `Macintosh`, `Windows`, `X11` contains `;` |
| UserAgent.OsVersionReadable | src/models/scraper.py:66-100 | none of the OS versions drawn for Macintosh, Windows or X11 contains `)` |
| UserAgent.UserAgentShape | src/models/scraper.py:66-110 | every generated string has the fixed frame, an OS from the three systems, an OS version of that OS, and a browser version of one of that OS's browsers |
| UserAgent.EdgeOnlyUnderWindows | src/models/scraper.py:81-97 | Edge is drawn only under Windows, and an Edge version implies Windows and Edge |
| Scraper.ChromeArguments | src/models/scraper.py:48-52 | the browser gets `--proxy-server=<proxy>` first exactly when the proxy is truthy, and `--headless` exactly when asked |
| Scraper.New | src/models/scraper.py:32-55 | a driver is started exactly for the `'selenium'` type, with those arguments; the user agent is the generated one |
| Scraper.UserAgentHeader | src/models/scraper.py:178-186 | the header map has the single key `User-Agent`, mapped to the scraper's user agent |
| Scraper.Proxies | src/models/scraper.py:124 | with a truthy proxy both `http` and `https` go through it; otherwise no proxies are passed |
| Scraper.PageStep | src/models/scraper.py:126-146 | one attempt: a served page is the non-empty first read (selenium: the second read); an empty page goes round again; a second read that raises fails after the jitter; a thrown exception is that attempt's error, handled exactly when the branch's except clause matches it and escaping otherwise |
| Scraper.FetchPage | src/models/scraper.py:123-147 | at most 3 attempts; no attempt and None without a usable branch; a returned document comes from the last attempt, whose first content check saw a non-empty page, and in selenium mode is the second `page_source` read; in requests mode it is never empty; only a non-`RequestException` escapes, and only in requests mode; each requests-mode attempt sends the user-agent header, the proxies and timeout 10 |
| Scraper.FetchReturnsFirstContent | src/models/scraper.py:125-146 | the first attempt that serves a document returns it after exactly that many attempts, followed by one jitter sleep; each earlier attempt slept as its failure asked (none after an empty page); in selenium mode the document is the second `page_source` read |
| Scraper.FetchGivesUpAfterThreeFailures | src/models/scraper.py:132-135 | three request exceptions give None after three attempts, with a ten-fold backoff after the first two and none after the last |
| Scraper.BrowserBacksOffByOneJitter | src/models/scraper.py:136-146 | in selenium mode three failures give None, with a single jitter (not ten) after the first two |
| Scraper.EmptyPagesFallThrough | src/models/scraper.py:129-147 | empty pages are retried at once without any sleep; three empty pages fall through to None |
| Scraper.RereadFailureSleepsTwice | src/models/scraper.py:139-146 | when the second `page_source` read keeps raising, every attempt but the last sleeps twice (before returning and in the except clause), the last once, and the result is None |
| Scraper.PostPage | src/models/scraper.py:162-176 | outside requests mode, NotImplementedError with no attempt; at most 3 attempts; a returned response never has a 4xx/5xx status; the caller's headers and JSON are sent unchanged with timeout 10; there is never a jitter sleep |
| Scraper.PostStep | src/models/scraper.py:165-176 | one attempt: a reply is kept, unchanged, exactly when its status is outside [400, 600), and otherwise becomes the handled `HTTPError` of `raise_for_status`; a thrown exception is that attempt's error, handled exactly when it is a `RequestException` and escaping otherwise |
| Scraper.PostReturnsFirstGoodResponse | src/models/scraper.py:164-176 | the first response with a good status is returned after exactly that many attempts, with no sleep before returning; each earlier failed attempt was followed by the ten-fold backoff |
| Scraper.PostGivesUpAfterThreeFailures | src/models/scraper.py:173-176 | three failed posts give None, with a ten-fold backoff after the first two |
| Scraper.Close | src/models/scraper.py:188-193 | `close` quits the driver exactly when there is one |
| Scraper.CloseQuitsOnlyBrowsers | src/models/scraper.py:46-55 | a scraper built as `'selenium'` quits its browser on close; any other scraper issues nothing |
| Scraper.LoggedPostPage | src/models/logger.py:132-138 | through the decorator, `post_page`'s response, None or exception passes through unchanged; a configured logger records exactly the start of `Scraper.post_page` and then its finish or its error record |
| Scraper.LoggedFetchPage | src/models/logger.py:131-138 | through the decorator, `fetch_page`'s result or exception passes through; a configured logger records exactly the start of `Scraper.fetch_page` and then its finish record, or its error record naming the exception that escaped |
| Scraper.LoggedPostOutsideRequests | src/models/scraper.py:162-163 | a selenium scraper's post logs `Starting 'Scraper.post_page'...` then the error record naming `Scraper.post_page`, and re-raises the NotImplementedError |
| Logging.Log | src/models/logger.py:70-78 | a record is kept, appended last, exactly when its level reaches the root logger's threshold; nothing else changes |
| Logging.LogInfo | src/models/logger.py:98-105 | an INFO record is kept exactly when the logger was configured; the log file and the threshold are unchanged |
| Logging.LogWarning | src/models/logger.py:80-87 | a WARNING record is kept unless the threshold is ERROR; the log file and the threshold are unchanged |
| Logging.LogError | src/models/logger.py:89-96 | an ERROR record is always kept |
| Logging.PathJoin | src/models/logger.py:54 | the log path is the directory, a `/` exactly when the directory is non-empty and does not end with one, then the file name |
| Logging.NoticeFor | src/models/logger.py:63-68 | a `FileNotFoundError` is reported as a missing directory, any other `OSError` as a directory that cannot be created, any other exception as a failed configuration; the printed line ends with the exception's text |
| Logging.NewLogger | src/models/logger.py:39-68 | construction never fails; the log file stays None exactly when creating the missing directory failed; the notice printed follows the except clause that caught the fault; INFO is enabled exactly when nothing failed |
| Logging.QualifiedName | src/models/logger.py:124-129 | `Class.method` when the first argument has an attribute named like the function, otherwise the bare name |
| Logging.Decorated | src/models/logger.py:120-139 | the wrapped result or exception passes through unchanged; with INFO enabled the records are start, the function's own (as the root logger kept them), then finish or error; an exception always leaves the error record last |
| Logging.TwoEntriesPerCall | src/models/logger.py:131-138 | a configured logger gets exactly two records of the wrapper's own per call, the start record first |
| Logging.UnconfiguredKeepsOnlyErrors | src/models/logger.py:131-138 | with INFO disabled, a normal return leaves no wrapper record and an exception leaves only its error record |
| Sql.ReadListJoin | src/models/mysql_database.py:53 | a joined list of non-empty, comma-free column names reads back as the same list |
| Sql.Placeholders | src/models/mysql_database.py:54 | the placeholder list contains no `)` and reads back as n copies of `%s` |
| Sql.Statement | src/models/mysql_database.py:53-55 | the f-string itself; it has no contract of its own, and what it holds is stated by Sql.StatementRoundTrip |
| Sql.StatementRoundTrip | src/models/mysql_database.py:53-55 | the statement names its table, lists the record's columns in key order, and carries exactly one placeholder per column |
| Sql.StatementDeterminesColumns | src/models/mysql_database.py:84-87 | two statements for the same table are equal only when their column lists are |
| Database.Keys | src/models/mysql_database.py:53 | the columns are the record's keys in order |
| Database.Values | src/models/mysql_database.py:57 | the parameters are the record's values in key order |
| Database.Connect | src/models/mysql_database.py:31-48 | at most `max_retries` attempts, all in autocommit mode; it returns without connecting only when no attempt is allowed; success sets connection and cursor, anything else leaves them as they were; only the 30 second wait is ever taken; a driver error is raised only after every attempt failed |
| Database.ConnectStep | src/models/mysql_database.py:35-44 | one attempt connects exactly when the driver opens the connection; a thrown exception is that attempt's error, handled exactly when it is a `pymysql.Error` and escaping otherwise |
| Database.ConnectStopsAtFirstSuccess | src/models/mysql_database.py:32-46 | the first successful attempt ends the loop; each failure before it is followed by a 30 second wait, and the success by none |
| Database.ConnectReraisesLastError | src/models/mysql_database.py:44-48 | when every attempt fails, there is a wait after each but the last and the last error is re-raised; one allowed attempt means no wait |
| Database.ConnectLetsOtherErrorsThrough | src/models/mysql_database.py:44 | an exception that is not a `pymysql.Error` propagates from the attempt that raised it |
| Database.New | src/models/mysql_database.py:20-28 | the store starts empty and is either still empty or fully connected; with no attempts allowed nothing is tried and nothing fails; a driver error leaves it only after all attempts |
| Database.DefaultGivesUpAfterThirty | src/models/mysql_database.py:20-48 | with the default `max_retries=30` and a server that keeps refusing, 30 attempts are made with a 30 second wait between them, and the last error leaves the constructor |
| Database.Perform | src/models/mysql_database.py:56-58 | the calls issued are a prefix of the plan; a normal end means the whole plan went out; an error comes from the last issued call or from a None holder |
| Database.PerformAll | src/models/mysql_database.py:56-58 | with every holder set and no call failing, the whole plan is issued and nothing is raised |
| Database.PerformStopsAt | src/models/mysql_database.py:56-58 | the first failing call is the last one issued, and its exception is the result |
| Database.Guarded | src/models/mysql_database.py:88-92 | an exception in the guarded block is swallowed; only a failing rollback (or a None connection at rollback) escapes |
| Database.GuardedRollsBack | src/models/mysql_database.py:96-107 | the rollback directly follows the first failing call; the error survives only if the rollback fails |
| Database.Insert | src/models/mysql_database.py:50-58 | one `INSERT` with the values in key order, then a commit; an exception propagates; without a connection nothing is issued |
| Database.Rows | src/models/mysql_database.py:74 | one value tuple per record, in order |
| Database.InsertMany | src/models/mysql_database.py:60-78 | an empty list issues nothing; otherwise a single `executemany` with the first record's columns and every record's values, then a commit |
| Database.InsertData | src/models/mysql_database.py:80-92 | an empty record issues nothing; otherwise `REPLACE` then commit, any failure followed by a rollback and swallowed; before a connect, the rollback itself fails on None |
| Database.NonEmpty | src/models/mysql_database.py:97-99 | the kept records are exactly the non-empty ones |
| Database.ReplacePlan | src/models/mysql_database.py:97-99 | the loop plans at most one execute per record, all through the shared cursor |
| Database.Executed | src/models/mysql_database.py:98-99 | an empty record gets no execute, a non-empty one exactly one |
| Database.ReplacePlanSkipsEmpty | src/models/mysql_database.py:97-104 | the loop issues one `REPLACE` per non-empty record, in order |
| Database.ListPlan | src/models/mysql_database.py:97-104 | the calls planned are one `REPLACE` per non-empty record, in order, then one commit |
| Database.ListPlanGoesThrough | src/models/mysql_database.py:97-104 | when no call fails on a connected store, every planned call is issued and nothing is rolled back |
| Database.InsertDataList | src/models/mysql_database.py:94-107 | one `REPLACE` per non-empty record then one commit; errors are swallowed unless the rollback fails |
| Database.InsertDataListStopsAtFailure | src/models/mysql_database.py:96-107 | the first failing call ends the loop: no later execute, no commit after it, one rollback, and the error is swallowed unless the rollback fails |
| Database.SingleListIsInsertData | src/models/mysql_database.py:80-107 | a list holding one non-empty record behaves exactly as `insert_data` of it; for an empty record the list version still commits, which `insert_data` does not |
| Database.EmptyListCommits | src/models/mysql_database.py:96-105 | an empty list still issues its one commit |
| Database.Disconnect | src/models/mysql_database.py:109-114 | the cursor is closed only if set and the connection only if set; a normal end closes exactly what is set; a failing `cursor.close()` propagates and `connection.close()` is skipped; no AttributeError can arise |
| Database.NothingIssuedWithoutConnection | src/models/mysql_database.py:25-26 | before a successful connect, `insert` and `insert_many` fail looking up `cursor`, `insert_data(_list)` fails looking up `rollback`, and `disconnect` does nothing |
| Beijing.ExtractRows | src/models/city/bj.py:17-27 | the loop computes the reference dict and prints the skip notice once per short row |
| Beijing.Extract | src/models/city/bj.py:20-25 | the reference dict, with no contract of its own; its keys and values are stated by Beijing.ExtractKeys and Beijing.LaterRowWins |
| Beijing.ShortRows | src/models/city/bj.py:26-27 | the skipped-row count is at most the number of rows; it is zero exactly when every row has two cells, and all of the rows exactly when none has |
| Beijing.ShortRowsSnoc | src/models/city/bj.py:20-27 | reading one more row adds one to the skipped count exactly when the row has fewer than two cells |
| Beijing.ExtractSnoc | src/models/city/bj.py:20-27 | reading one more row sets its stripped key to its stripped value when it has two cells, and changes nothing otherwise |
| Beijing.ExtractKeys | src/models/city/bj.py:20-25 | the dict's keys are exactly the stripped first cells of the rows with at least two cells |
| Beijing.LaterRowWins | src/models/city/bj.py:25 | a key maps to the stripped second cell of the last qualifying row with that key |
| Beijing.ShortRowsIgnored | src/models/city/bj.py:22-27 | removing a row with fewer than two cells changes nothing |
| Beijing.ExtraCellsIgnored | src/models/city/bj.py:23-24 | cutting every row down to its first two cells changes nothing |
| Beijing.FirstTwoOfEach | src/models/city/bj.py:23-24 | every row is replaced by its first two cells, row for row |
| Beijing.ScrapePage | src/models/city/bj.py:11-25 | the script needs a fetched document, and its dict's keys are the stripped first cells of the selected qualifying rows |
| Beijing.Soup | src/models/city/bj.py:11-12 | the script's fetch is a default requests-mode `Scraper`: every attempt is a GET of the Beijing page with the generated user agent and no proxies; a returned page is never empty; only a non-`RequestException` escapes |

## Behaviour of the code worth knowing


- `connect` with `max_retries = 1` raises after one attempt without waiting. The wait is taken only before another attempt (src/models/mysql_database.py:45-48).
- `post_page` retries on a status from 400 to 599, the range for which `raise_for_status` raises. It does not retry on every non-2xx status.
- `fetch_page` does not look at the HTTP status at all: any non-empty body counts as a page.
- In Selenium mode `fetch_page` reads `page_source` twice (src/models/scraper.py:140-142). The non-empty check is on the first read, and the page returned is the second read. When the second read raises, the jitter before returning has already been taken, and the except clause sleeps once more.
- `close` and `disconnect` do not clear the driver, connection or cursor. A second call issues the quit or close calls again, so they are not idempotent as far as the calls are concerned.
- `insert_data_list([])` still commits.
- Nothing is claimed about table contents after a rollback. The connection runs with autocommit, so earlier statements are already committed.
- When `setup_logging` fails, `basicConfig` did not set the level: either it was never reached, or it ran and raised while opening the log file. The root logger keeps Python's default WARNING level, so the decorator's INFO records are dropped and only its ERROR records remain.

## Left out

- Network, browser, database server, file system, clock and `random`: they are oracles or index parameters.
  - A sleep is recorded only as its kind (jitter, ten-fold backoff, fixed 30 seconds), since its duration is a random float.
- The database host, user, password and name: they are fixed values that play no part in the logic.
- Scraper.FetchPage: BeautifulSoup parsing is the identity on the text, and parser failures are not modelled. In requests mode the document is the response content. In selenium mode it is the second `page_source` read, whose value or exception is an oracle of its own.
- Scraper.New: a failing `webdriver.Chrome(...)` start is not modelled, and neither is the decorator around `__init__`.
- The decorator is modelled around `post_page` and `fetch_page` only (Scraper.LoggedPostPage, Scraper.LoggedFetchPage). Around the other decorated methods it behaves the same way, as Logging.Decorated states for any call.
- Database.Insert and Database.InsertMany: the temporary cursor of the `with` block (src/models/mysql_database.py:56, 76) is not traced as a call of its own. Its creation is the `cursor` lookup that fails when the connection is None, and closing it on exit is not recorded.
- Database.Connect: only the connection attempt is an oracle. Creating the cursor right after a successful connect is taken to succeed.
- Records are ordered sequences of (column, value) pairs. Distinct keys are not required, so the model also covers sequences a dict could not produce.
- Logging.PathJoin: POSIX paths are assumed. On Windows `os.path.join` uses `\` and also treats an existing `\` as a separator.
- Logging.NewLogger: a `basicConfig` call that does nothing because the root logger already has handlers is not modelled. Neither are record timestamps and formatting.
- Logging.Decorated: only `Exception` subclasses are modelled. A `BaseException` such as KeyboardInterrupt would pass through without an error record.
- Logging.Decorated: the records the wrapped function logs itself are given as already filtered by the root logger's threshold; they are not filtered again. None of the decorated methods in this core logs anything itself.
- The HTML selection of `tr` rows with the highlighted background: the rows are given as lists of cell texts.
  - The final printing of the dict is not modelled, because Dafny maps have no order.
  - `from . import test` in the Beijing script is not modelled.
- Beijing.ScrapePage: it requires a fetched document. When `fetch_page` gives up and returns None, `soup.find_all` (src/models/city/bj.py:15) raises an AttributeError, and that failure is not modelled.
- Thread demos under `__main__` and `__del__` finalisation timing: concurrency and garbage collection are outside a sequential model.
- Text.IsSpace: it covers the characters Python's `str.isspace()` accepts. There is no Unicode normalisation.

=== FILE: beijing.dfy ===
/** `src/models/city/bj.py`: the Beijing housing page script. The page is
    fetched, the highlighted table rows are selected, and each row with at
    least two cells adds `first cell -> second cell` (both stripped) to a
    dict. HTML parsing is not modelled: a row is the list of its cells'
    texts. */
module Beijing {
  import opened Common
  import opened Text
  import Retry
  import UserAgent
  import Scraper

  const PageUrl: string := "http://bjjs.zjw.beijing.gov.cn/eportal/ui?pageId=307749"

  /** The script's `soup`: a default `Scraper()` (requests mode, no proxy)
      fetching the Beijing page. Every attempt is a GET of that page with the
      generated user agent and no proxies; a returned page is never empty,
      and only an exception that is not a `RequestException` escapes. */
  function Soup(c: UserAgent.Choice, answers: nat -> Scraper.PageAnswer): (out: Retry.Outcome<Scraper.Document>)
    requires UserAgent.Valid(c)
    ensures out.Returned? && out.value.Some? ==> |out.value.value.html| > 0
    ensures out.Raised? ==> !out.error.IsRequestException()
    ensures var s := Scraper.New("requests", None, false, c);
      forall k :: 0 <= k < |Scraper.FetchPage(s, PageUrl, answers).rounds| ==>
        Scraper.FetchPage(s, PageUrl, answers).rounds[k].request
          == Scraper.HttpGet(PageUrl, map["User-Agent" := UserAgent.RandomUserAgent(c)], None, Scraper.Timeout)
  {
    var s := Scraper.New("requests", None, false, c);
    assert Scraper.Proxies(s.proxy) == None;
    Scraper.FetchPage(s, PageUrl, answers).outcome
  }

  /** The texts of a row's `td` cells, in order. */
  type Row = seq<string>

  /** A row with enough cells to give a key and a value. */
  predicate Qualifies(row: Row)
  {
    |row| >= 2
  }

  /** The dict after the rows have been read one after the other: each
      qualifying row sets its key, so a later row overwrites an earlier one. */
  function Extract(rows: seq<Row>): map<string, string>
    decreases |rows|
  {
    if rows == [] then map[]
    else
      var data := Extract(rows[..|rows| - 1]);
      var row := rows[|rows| - 1];
      if Qualifies(row) then data[Strip(row[0]) := Strip(row[1])] else data
  }

  /** The line printed for a row with too few cells. */
  const SkipNotice: string := "找到的列数少于预期，跳过这一行"

  /** The number of rows with too few cells. */
  function ShortRows(rows: seq<Row>): (n: nat)
    ensures n <= |rows|
    ensures n == 0 <==> forall i :: 0 <= i < |rows| ==> Qualifies(rows[i])
    ensures n == |rows| <==> forall i :: 0 <= i < |rows| ==> !Qualifies(rows[i])
    decreases |rows|
  {
    if rows == [] then 0
    else ShortRows(rows[..|rows| - 1]) + (if Qualifies(rows[|rows| - 1]) then 0 else 1)
  }

  /** Reading one more row adds one to the count when the row is short. */
  lemma ShortRowsSnoc(init: seq<Row>, row: Row)
    ensures ShortRows(init + [row]) == ShortRows(init) + (if Qualifies(row) then 0 else 1)
  {
    assert (init + [row])[..|init|] == init;
  }

  /** The loop of the script, with the lines it prints for skipped rows. */
  method ExtractRows(rows: seq<Row>) returns (data: map<string, string>, printed: seq<string>)
    ensures data == Extract(rows)
    ensures printed == Repeat(SkipNotice, ShortRows(rows))
  {
    data := map[];
    printed := [];
    var i := 0;
    while i < |rows|
      invariant 0 <= i <= |rows|
      invariant data == Extract(rows[..i])
      invariant printed == Repeat(SkipNotice, ShortRows(rows[..i]))
    {
      var cells := rows[i];
      assert rows[..i + 1] == rows[..i] + [cells];
      ExtractSnoc(rows[..i], cells);
      ShortRowsSnoc(rows[..i], cells);
      if |cells| >= 2 {
        var key := Strip(cells[0]);
        var value := Strip(cells[1]);
        data := data[key := value];
      } else {
        printed := printed + [SkipNotice];
      }
      i := i + 1;
    }
    assert rows[..|rows|] == rows;
  }

  /** The keys a list of rows yields: the stripped first cells of the
      qualifying rows. */
  function KeySet(rows: seq<Row>): set<string>
  {
    set i | 0 <= i < |rows| && Qualifies(rows[i]) :: Strip(rows[i][0])
  }

  /** Appending a row adds its key, if it qualifies, and nothing else. */
  lemma KeySetSnoc(init: seq<Row>, row: Row)
    ensures KeySet(init + [row]) == KeySet(init) + (if Qualifies(row) then {Strip(row[0])} else {})
  {
    var rows := init + [row];
    forall k | k in KeySet(rows)
      ensures k in KeySet(init) + (if Qualifies(row) then {Strip(row[0])} else {})
    {
      var i :| 0 <= i < |rows| && Qualifies(rows[i]) && Strip(rows[i][0]) == k;
      if i < |init| {
        assert rows[i] == init[i];
      }
    }
    forall k | k in KeySet(init)
      ensures k in KeySet(rows)
    {
      var i :| 0 <= i < |init| && Qualifies(init[i]) && Strip(init[i][0]) == k;
      assert rows[i] == init[i];
    }
    if Qualifies(row) {
      assert rows[|init|] == row;
    }
  }

  /** The dict's keys are exactly the stripped first cells of the rows with
      at least two cells. */
  lemma {:induction false} ExtractKeys(rows: seq<Row>)
    ensures Extract(rows).Keys == KeySet(rows)
    decreases |rows|
  {
    if rows != [] {
      var init := rows[..|rows| - 1];
      ExtractKeys(init);
      assert rows == init + [rows[|rows| - 1]];
      KeySetSnoc(init, rows[|rows| - 1]);
    }
  }

  /** The value of a key comes from the last qualifying row with that key:
      that row's stripped second cell. */
  lemma {:induction false} LaterRowWins(rows: seq<Row>, i: nat)
    requires i < |rows| && Qualifies(rows[i])
    requires forall j :: i < j < |rows| && Qualifies(rows[j]) ==> Strip(rows[j][0]) != Strip(rows[i][0])
    ensures Strip(rows[i][0]) in Extract(rows)
    ensures Extract(rows)[Strip(rows[i][0])] == Strip(rows[i][1])
    decreases |rows|
  {
    var init := rows[..|rows| - 1];
    if i < |rows| - 1 {
      assert init[i] == rows[i];
      LaterRowWins(init, i);
    }
  }

  /** Reading one more row. */
  lemma ExtractSnoc(init: seq<Row>, row: Row)
    ensures Extract(init + [row]) == if Qualifies(row) then Extract(init)[Strip(row[0]) := Strip(row[1])] else Extract(init)
  {
    assert (init + [row])[..|init|] == init;
  }

  /** Rows with fewer than two cells contribute nothing. */
  lemma {:induction false} ShortRowsIgnored(rows: seq<Row>, short: Row, more: seq<Row>)
    requires !Qualifies(short)
    ensures Extract(rows + [short] + more) == Extract(rows + more)
    decreases |more|
  {
    if more == [] {
      assert rows + [short] + more == rows + [short];
      assert rows + more == rows;
      ExtractSnoc(rows, short);
    } else {
      var m := more[..|more| - 1];
      var last := more[|more| - 1];
      ShortRowsIgnored(rows, short, m);
      assert rows + [short] + more == (rows + [short] + m) + [last];
      assert rows + more == (rows + m) + [last];
      ExtractSnoc(rows + [short] + m, last);
      ExtractSnoc(rows + m, last);
    }
  }

  /** A row cut down to its first two cells. */
  function FirstTwo(row: Row): (r: Row)
    ensures Qualifies(r) <==> Qualifies(row)
    ensures Qualifies(row) ==> r[0] == row[0] && r[1] == row[1]
  {
    if |row| <= 2 then row else row[..2]
  }

  /** Every row cut down to its first two cells. */
  function FirstTwoOfEach(rows: seq<Row>): (r: seq<Row>)
    ensures |r| == |rows|
    ensures forall i :: 0 <= i < |rows| ==> r[i] == FirstTwo(rows[i])
    decreases |rows|
  {
    if rows == [] then []
    else
      var init := rows[..|rows| - 1];
      var r := FirstTwoOfEach(init) + [FirstTwo(rows[|rows| - 1])];
      assert forall i :: 0 <= i < |init| ==> init[i] == rows[i];
      r
  }

  /** Cells after the second are ignored. */
  lemma {:induction false} ExtraCellsIgnored(rows: seq<Row>)
    ensures Extract(rows) == Extract(FirstTwoOfEach(rows))
    decreases |rows|
  {
    if rows != [] {
      var init := rows[..|rows| - 1];
      ExtraCellsIgnored(init);
      var cut := FirstTwoOfEach(rows);
      assert cut[..|cut| - 1] == FirstTwoOfEach(init);
      assert cut[|cut| - 1] == FirstTwo(rows[|rows| - 1]);
    }
  }

  /** The script as a whole: it goes straight on to read the rows of the
      fetched document, so it needs `fetch_page` to have returned one. */
  function ScrapePage(fetched: Option<Scraper.Document>, select: Scraper.Document -> seq<Row>): (data: map<string, string>)
    requires fetched.Some?
    ensures data.Keys == KeySet(select(fetched.value))
  {
    ExtractKeys(select(fetched.value));
    Extract(select(fetched.value))
  }
}

=== FILE: common.dfy ===
/** Values shared by every component: an optional value and the exceptions
    the modelled Python code raises, catches or lets escape. */
module Common {

  /** Python's `None` or a present value. */
  datatype Option<+T> = None | Some(value: T)

  /** The exceptions that matter to the retry loops and write paths. Each
      carries the text `str(e)` would produce, except `HttpStatusError`,
      which keeps only the status and the URL of the failed request. */
  datatype Exc =
    | RequestError(detail: string)             // requests.exceptions.RequestException (transport level)
    | HttpStatusError(status: int, detail: string) // requests.HTTPError from raise_for_status, a RequestException
    | DriverError(detail: string)              // anything a Selenium driver raises
    | DatabaseError(detail: string)            // pymysql.Error
    | MissingAttribute(attribute: string)      // AttributeError from a call on None
    | NotImplemented(detail: string)           // NotImplementedError
    | OtherError(detail: string)               // any other Exception subclass
  {
    /** True of the exceptions `except requests.exceptions.RequestException` handles. */
    predicate IsRequestException() {
      RequestError? || HttpStatusError?
    }

    /** True of the exceptions `except pymysql.Error` handles. */
    predicate IsDatabaseError() {
      DatabaseError?
    }

    /** The text of `str(e)`; for an `HttpStatusError` only its URL, since
        `post_page` handles that error and never shows its text. */
    function Text(): string {
      match this
      case MissingAttribute(a) => "'NoneType' object has no attribute '" + a + "'"
      case HttpStatusError(_, d) => d
      case RequestError(d) => d
      case DriverError(d) => d
      case DatabaseError(d) => d
      case NotImplemented(d) => d
      case OtherError(d) => d
    }
  }
}

=== FILE: database.dfy ===
/** `src/models/mysql_database.py`: the `MySQLDatabase` class. The server is
    not modelled: each method is described by the calls it issues on the
    pymysql connection and cursor, and an oracle says which of those calls
    raises. Tables, rows and what a rollback undoes are out of view (the
    connection runs with autocommit). */
module Database {
  import opened Common
  import opened Text
  import opened Retry
  import Sql

  /** A column value as handed to the driver. */
  datatype Value = IntValue(i: int) | TextValue(s: string) | NullValue

  /** A Python dict in insertion order: `keys()` and `values()` run through
      the pairs in this order. */
  type Record = seq<(string, Value)>

  function Keys(r: Record): (ks: seq<string>)
    ensures |ks| == |r| && forall i :: 0 <= i < |r| ==> ks[i] == r[i].0
  {
    seq(|r|, i requires 0 <= i < |r| => r[i].0)
  }

  function Values(r: Record): (vs: seq<Value>)
    ensures |vs| == |r| && forall i :: 0 <= i < |r| ==> vs[i] == r[i].1
  {
    seq(|r|, i requires 0 <= i < |r| => r[i].1)
  }

  /** Whether `self.connection` and `self.cursor` are set. Both start as None
      and are set together by a successful connect; nothing clears them. */
  datatype Store = Store(connection: bool, cursor: bool)

  const Fresh: Store := Store(false, false)

  /** `self.max_retries` when the constructor's argument is left out. */
  const DefaultMaxRetries: int := 30

  // ---------------------------------------------------------------------
  // connect

  /** How one `pymysql.connect(...)` attempt ends. */
  datatype ConnectAnswer = Opened | ConnectThrows(error: Exc)

  /** What an attempt sends: the connection is always opened in autocommit
      mode. The host and credentials are fixed and not modelled. */
  datatype Opening = Opening(autocommit: bool)

  /** `break` on success, `except pymysql.Error` for driver errors; any other
      exception leaves the loop. */
  function ConnectStep(a: ConnectAnswer): (st: Step<()>)
    ensures st.Caught? ==> st.error.IsDatabaseError()
    ensures st.Escaped? ==> !st.error.IsDatabaseError()
    ensures !st.Again?
    ensures st.Done? <==> a.Opened?
    ensures a.ConnectThrows? ==> st.error == a.error && (st.Caught? <==> a.error.IsDatabaseError())
  {
    match a
    case Opened => Done(())
    case ConnectThrows(e) => if e.IsDatabaseError() then Caught(e) else Escaped(e)
  }

  /** No sleep after success, 30 seconds after a failure, re-raise at the end. */
  const Connecting: Policy := Policy(None, Wait30, Reraise)

  datatype Connection = Connection(run: Run<(), Opening>, store: Store)

  /** `MySQLDatabase.connect()`. */
  function Connect(st: Store, maxRetries: int, answers: nat -> ConnectAnswer): (r: Connection)
    ensures |r.run.rounds| <= Bound(maxRetries)
    ensures forall k :: 0 <= k < |r.run.rounds| ==> r.run.rounds[k].request == Opening(true)
    ensures r.run.outcome == Returned(None) <==> maxRetries <= 0
    ensures r.run.outcome.Returned? && r.run.outcome.value.Some? ==> r.store == Store(true, true)
    ensures !(r.run.outcome.Returned? && r.run.outcome.value.Some?) ==> r.store == st
    ensures r.run.outcome.Raised? && r.run.outcome.error.IsDatabaseError() ==> |r.run.rounds| == Bound(maxRetries)
    ensures forall k :: 0 <= k < |r.run.rounds| ==> r.run.rounds[k].pauses == [] || r.run.rounds[k].pauses == [Wait30]
  {
    var steps := (j: nat) => ConnectStep(answers(j));
    AttemptsDescribed(Connecting, maxRetries, Opening(true), steps);
    var run := Attempts(Connecting, maxRetries, Opening(true), steps);
    if |run.rounds| > 0 then
      assert steps(|run.rounds| - 1) == ConnectStep(answers(|run.rounds| - 1));
      Connection(run, if run.outcome.Returned? && run.outcome.value.Some? then Store(true, true) else st)
    else
      Connection(run, st)
  }

  /** The first successful attempt ends the loop without a sleep after it; a
      failed attempt before it is followed by a 30 second wait. */
  lemma ConnectStopsAtFirstSuccess(st: Store, maxRetries: int, answers: nat -> ConnectAnswer, k: nat)
    requires k < maxRetries
    requires answers(k) == Opened
    requires forall j :: 0 <= j < k ==> answers(j).ConnectThrows? && answers(j).error.IsDatabaseError()
    ensures Connect(st, maxRetries, answers).store == Store(true, true)
    ensures Connect(st, maxRetries, answers).run.rounds == Repeat(Round(Opening(true), [Wait30]), k) + [Round(Opening(true), [])]
  {
    var steps := (j: nat) => ConnectStep(answers(j));
    assert forall j :: 0 <= j < k ==> Continues(steps(j));
    FirstDoneWins(Connecting, maxRetries, Opening(true), steps, k);
    var rounds := Connect(st, maxRetries, answers).run.rounds;
    assert rounds == Repeat(Round(Opening(true), [Wait30]), k) + [Round(Opening(true), [])];
  }

  /** When every attempt raises a `pymysql.Error`, the loop waits 30 seconds
      after each attempt but the last and re-raises the last error. With one
      allowed attempt there is no wait at all. */
  lemma ConnectReraisesLastError(st: Store, maxRetries: int, answers: nat -> ConnectAnswer)
    requires maxRetries > 0
    requires forall j :: 0 <= j < maxRetries ==> answers(j).ConnectThrows? && answers(j).error.IsDatabaseError()
    ensures Connect(st, maxRetries, answers).run.outcome == Raised(answers(maxRetries - 1).error)
    ensures Connect(st, maxRetries, answers).store == st
    ensures Connect(st, maxRetries, answers).run.rounds ==
              Repeat(Round(Opening(true), [Wait30]), maxRetries - 1) + [Round(Opening(true), [])]
  {
    var steps := (j: nat) => ConnectStep(answers(j));
    AllCaught(Connecting, maxRetries, Opening(true), steps);
  }

  /** An exception that is not a `pymysql.Error` leaves at once. */
  lemma ConnectLetsOtherErrorsThrough(st: Store, maxRetries: int, answers: nat -> ConnectAnswer, k: nat)
    requires k < maxRetries
    requires answers(k).ConnectThrows? && !answers(k).error.IsDatabaseError()
    requires forall j :: 0 <= j < k ==> answers(j).ConnectThrows? && answers(j).error.IsDatabaseError()
    ensures Connect(st, maxRetries, answers).run.outcome == Raised(answers(k).error)
    ensures |Connect(st, maxRetries, answers).run.rounds| == k + 1
  {
    var steps := (j: nat) => ConnectStep(answers(j));
    assert forall j :: 0 <= j < k ==> Continues(steps(j));
    FirstEscapeRaises(Connecting, maxRetries, Opening(true), steps, k);
  }

  /** The constructor `MySQLDatabase(max_retries=30)`: fields unset, then
      `connect()`. */
  function New(answers: nat -> ConnectAnswer, maxRetries: int := DefaultMaxRetries): (r: Connection)
    ensures r.store == Fresh || r.store == Store(true, true)
    ensures maxRetries <= 0 ==> r == Connection(Run(Returned(None), []), Fresh)
    ensures r.run.outcome.Raised? && r.run.outcome.error.IsDatabaseError() ==> |r.run.rounds| == Bound(maxRetries)
  {
    Connect(Fresh, maxRetries, answers)
  }

  /** With the default argument, a server that keeps refusing is tried 30
      times, with a 30 second wait between attempts, before the last error
      leaves the constructor. */
  lemma DefaultGivesUpAfterThirty(answers: nat -> ConnectAnswer)
    requires forall j :: 0 <= j < DefaultMaxRetries ==> answers(j).ConnectThrows? && answers(j).error.IsDatabaseError()
    ensures New(answers).run.outcome == Raised(answers(29).error)
    ensures New(answers).store == Fresh
    ensures New(answers).run.rounds == Repeat(Round(Opening(true), [Wait30]), 29) + [Round(Opening(true), [])]
  {
    ConnectReraisesLastError(Fresh, DefaultMaxRetries, answers);
  }

  // ---------------------------------------------------------------------
  // Write calls

  /** The driver calls the write methods issue. */
  datatype Call =
    | Execute(sql: string, params: seq<Value>)
    | ExecuteMany(sql: string, rows: seq<seq<Value>>)
    | Commit
    | Rollback
    | CloseCursor
    | CloseConnection

  /** The object a call goes through: `self.connection` (or a cursor freshly
      taken from it), or the shared `self.cursor`. */
  datatype Holder = Conn | SharedCursor

  /** A call to make, with the attribute an AttributeError names when its
      holder is None. */
  datatype Planned = Planned(call: Call, via: Holder, attribute: string)

  predicate Holds(st: Store, h: Holder)
  {
    match h
    case Conn => st.connection
    case SharedCursor => st.cursor
  }

  function CallsOf(plan: seq<Planned>): (calls: seq<Call>)
    ensures |calls| == |plan| && forall i :: 0 <= i < |plan| ==> calls[i] == plan[i].call
  {
    seq(|plan|, i requires 0 <= i < |plan| => plan[i].call)
  }

  /** What a method did: the calls it issued, in order, and the exception it
      raised, if any. */
  datatype Effect = Effect(error: Option<Exc>, calls: seq<Call>)

  /** Issues the plan in order. Call number `start + k` of the method raises
      `fails(start + k)` when that is `Some`; a call whose holder is None
      raises an AttributeError without being issued. The first exception
      stops the plan. */
  function Perform(st: Store, plan: seq<Planned>, fails: nat -> Option<Exc>, start: nat): (r: Effect)
    ensures |r.calls| <= |plan| && r.calls == CallsOf(plan)[..|r.calls|]
    ensures r.error.None? ==> r.calls == CallsOf(plan)
    ensures r.error.Some? ==>
              || (|r.calls| > 0 && fails(start + |r.calls| - 1) == r.error)
              || (|r.calls| < |plan| && !Holds(st, plan[|r.calls|].via)
                  && r.error == Some(MissingAttribute(plan[|r.calls|].attribute)))
    decreases |plan|
  {
    if plan == [] then Effect(None, [])
    else if !Holds(st, plan[0].via) then Effect(Some(MissingAttribute(plan[0].attribute)), [])
    else if fails(start).Some? then Effect(fails(start), [plan[0].call])
    else
      var rest := Perform(st, plan[1..], fails, start + 1);
      CallsOfPrefix(plan, |rest.calls|);
      assert rest.error.Some? && |rest.calls| < |plan| - 1 ==> plan[1..][|rest.calls|] == plan[|rest.calls| + 1];
      Effect(rest.error, [plan[0].call] + rest.calls)
  }

  /** A prefix of the calls is the first call followed by a prefix of the
      rest. */
  lemma CallsOfPrefix(plan: seq<Planned>, n: nat)
    requires n < |plan|
    ensures CallsOf(plan)[..n + 1] == [plan[0].call] + CallsOf(plan[1..])[..n]
  {
    var a := CallsOf(plan)[..n + 1];
    var b := [plan[0].call] + CallsOf(plan[1..])[..n];
    assert |a| == |b|;
    forall i | 0 <= i < |a| ensures a[i] == b[i] {
      if i > 0 {
        assert b[i] == CallsOf(plan[1..])[i - 1] == plan[1..][i - 1].call;
      }
    }
  }

  /** Two calls whose holders are set: the first one raises, or both are
      issued and the second decides. */
  lemma PerformPair(st: Store, a: Planned, b: Planned, fails: nat -> Option<Exc>, start: nat)
    requires Holds(st, a.via) && Holds(st, b.via)
    ensures Perform(st, [a, b], fails, start) ==
              if fails(start).Some? then Effect(fails(start), [a.call]) else Effect(fails(start + 1), [a.call, b.call])
  {
    assert [a, b][1..] == [b];
    assert [b][1..] == [];
  }

  /** Everything can be issued and nothing raises: the whole plan goes out. */
  lemma {:induction false} PerformAll(st: Store, plan: seq<Planned>, fails: nat -> Option<Exc>, start: nat)
    requires forall i :: 0 <= i < |plan| ==> Holds(st, plan[i].via)
    requires forall k :: start <= k < start + |plan| ==> fails(k).None?
    ensures Perform(st, plan, fails, start) == Effect(None, CallsOf(plan))
    decreases |plan|
  {
    if plan != [] {
      PerformAll(st, plan[1..], fails, start + 1);
    }
  }

  /** The first call that raises is the last one issued. */
  lemma {:induction false} PerformStopsAt(st: Store, plan: seq<Planned>, fails: nat -> Option<Exc>, start: nat, k: nat)
    requires k < |plan|
    requires forall i :: 0 <= i <= k ==> Holds(st, plan[i].via)
    requires forall j :: start <= j < start + k ==> fails(j).None?
    requires fails(start + k).Some?
    ensures Perform(st, plan, fails, start) == Effect(fails(start + k), CallsOf(plan)[..k + 1])
    decreases k
  {
    if k > 0 {
      PerformStopsAt(st, plan[1..], fails, start + 1, k - 1);
      assert CallsOf(plan)[..k + 1] == [plan[0].call] + CallsOf(plan[1..])[..k];
    }
  }

  /** `try: <plan> except Exception: self.connection.rollback()`: any
      exception of the plan is swallowed after a rollback; only a failing
      rollback escapes. */
  function Guarded(st: Store, plan: seq<Planned>, fails: nat -> Option<Exc>): (r: Effect)
    ensures r.error.Some? ==>
              || (|r.calls| > 0 && r.calls[|r.calls| - 1] == Rollback && fails(|r.calls| - 1) == r.error)
              || (!st.connection && r.error == Some(MissingAttribute("rollback")))
    ensures r.error.None? && Rollback !in r.calls ==> r.calls == CallsOf(plan)
  {
    var body := Perform(st, plan, fails, 0);
    if body.error.None? then body
    else
      var undo := Perform(st, [Planned(Rollback, Conn, "rollback")], fails, |body.calls|);
      Effect(undo.error, body.calls + undo.calls)
  }

  /** The rollback follows the first failing call, and the error is swallowed
      when the rollback itself goes through. */
  lemma GuardedRollsBack(st: Store, plan: seq<Planned>, fails: nat -> Option<Exc>, k: nat)
    requires st.connection
    requires k < |plan|
    requires forall i :: 0 <= i <= k ==> Holds(st, plan[i].via)
    requires forall j :: 0 <= j < k ==> fails(j).None?
    requires fails(k).Some?
    ensures Guarded(st, plan, fails) == Effect(fails(k + 1), CallsOf(plan)[..k + 1] + [Rollback])
  {
    PerformStopsAt(st, plan, fails, 0, k);
  }

  // ---------------------------------------------------------------------
  // The write methods

  /** The execute call for one record: its statement and its values in key
      order. */
  function ExecuteRecord(verb: string, table: string, data: Record): Call
  {
    Execute(Sql.Statement(verb, table, Keys(data)), Values(data))
  }

  /** `insert(table, data)`: one execute on a cursor taken from the
      connection, then a commit. Exceptions propagate; without a connection
      the `cursor()` lookup fails first. The record is not checked for
      emptiness. */
  function Insert(st: Store, table: string, data: Record, fails: nat -> Option<Exc>): (r: Effect)
    ensures !st.connection ==> r == Effect(Some(MissingAttribute("cursor")), [])
    ensures st.connection && fails(0).Some? ==> r == Effect(fails(0), [ExecuteRecord(Sql.Insert, table, data)])
    ensures st.connection && fails(0).None? ==> r == Effect(fails(1), [ExecuteRecord(Sql.Insert, table, data), Commit])
  {
    var plan := [Planned(ExecuteRecord(Sql.Insert, table, data), Conn, "cursor"), Planned(Commit, Conn, "commit")];
    if st.connection then
      PerformPair(st, plan[0], plan[1], fails, 0);
      Perform(st, plan, fails, 0)
    else Perform(st, plan, fails, 0)
  }

  /** The value tuples of `insert_many`, one per record, in order. */
  function Rows(list: seq<Record>): (rows: seq<seq<Value>>)
    ensures |rows| == |list| && forall i :: 0 <= i < |list| ==> rows[i] == Values(list[i])
  {
    seq(|list|, i requires 0 <= i < |list| => Values(list[i]))
  }

  /** `insert_many(table, data_list)`: nothing for an empty list; otherwise
      a single `executemany` whose statement takes its columns from the first
      record only, then a commit. */
  function InsertMany(st: Store, table: string, list: seq<Record>, fails: nat -> Option<Exc>): (r: Effect)
    ensures |list| == 0 ==> r == Effect(None, [])
    ensures |list| > 0 && !st.connection ==> r == Effect(Some(MissingAttribute("cursor")), [])
    ensures |list| > 0 && st.connection ==>
              var call := ExecuteMany(Sql.Statement(Sql.Insert, table, Keys(list[0])), Rows(list));
              r == if fails(0).Some? then Effect(fails(0), [call]) else Effect(fails(1), [call, Commit])
  {
    if |list| == 0 then Effect(None, [])
    else
      var call := ExecuteMany(Sql.Statement(Sql.Insert, table, Keys(list[0])), Rows(list));
      var plan := [Planned(call, Conn, "cursor"), Planned(Commit, Conn, "commit")];
      if st.connection then
        PerformPair(st, plan[0], plan[1], fails, 0);
        Perform(st, plan, fails, 0)
      else Perform(st, plan, fails, 0)
  }

  /** The guarded part of `insert_data` for a non-empty record. */
  function ReplaceOne(table: string, data: Record): seq<Planned>
  {
    [Planned(ExecuteRecord(Sql.Replace, table, data), SharedCursor, "execute"), Planned(Commit, Conn, "commit")]
  }

  /** `insert_data(table_name, data)`: nothing for an empty record;
      otherwise a `REPLACE` through the shared cursor and a commit, with any
      exception turned into a rollback. */
  function InsertData(st: Store, table: string, data: Record, fails: nat -> Option<Exc>): (r: Effect)
    ensures |data| == 0 ==> r == Effect(None, [])
    ensures r.error.Some? ==>
              || (|r.calls| > 0 && r.calls[|r.calls| - 1] == Rollback && fails(|r.calls| - 1) == r.error)
              || (!st.connection && r.error == Some(MissingAttribute("rollback")))
    ensures |data| > 0 && st == Store(true, true) ==>
              var exec := ExecuteRecord(Sql.Replace, table, data);
              r == if fails(0).Some? then Effect(fails(1), [exec, Rollback])
                   else if fails(1).Some? then Effect(fails(2), [exec, Commit, Rollback])
                   else Effect(None, [exec, Commit])
    ensures |data| > 0 && st == Fresh ==> r == Effect(Some(MissingAttribute("rollback")), [])
  {
    if |data| == 0 then Effect(None, [])
    else
      var plan := ReplaceOne(table, data);
      if st == Store(true, true) then
        PerformPair(st, plan[0], plan[1], fails, 0);
        assert [plan[0], plan[1]] == plan;
        Guarded(st, plan, fails)
      else Guarded(st, plan, fails)
  }

  /** The execute calls of `insert_data_list`: one per non-empty record. */
  function ReplacePlan(table: string, list: seq<Record>): (plan: seq<Planned>)
    ensures |plan| <= |list|
    ensures forall i :: 0 <= i < |plan| ==> plan[i].via == SharedCursor
    decreases |list|
  {
    if list == [] then []
    else
      (if |list[0]| == 0 then [] else [Planned(ExecuteRecord(Sql.Replace, table, list[0]), SharedCursor, "execute")])
        + ReplacePlan(table, list[1..])
  }

  /** The records that are not empty, in order. */
  function NonEmpty(list: seq<Record>): (kept: seq<Record>)
    ensures |kept| <= |list|
    ensures forall i :: 0 <= i < |kept| ==> |kept[i]| > 0
    ensures forall x :: x in kept <==> x in list && |x| > 0
    decreases |list|
  {
    if list == [] then []
    else (if |list[0]| == 0 then [] else [list[0]]) + NonEmpty(list[1..])
  }

  /** One `REPLACE` per record, in order. */
  function Replaces(table: string, list: seq<Record>): (calls: seq<Call>)
    ensures |calls| == |list| && forall i :: 0 <= i < |list| ==> calls[i] == ExecuteRecord(Sql.Replace, table, list[i])
  {
    seq(|list|, i requires 0 <= i < |list| => ExecuteRecord(Sql.Replace, table, list[i]))
  }

  lemma CallsOfConcat(a: seq<Planned>, b: seq<Planned>)
    ensures CallsOf(a + b) == CallsOf(a) + CallsOf(b)
  {
  }

  lemma ReplacesConcat(table: string, a: seq<Record>, b: seq<Record>)
    ensures Replaces(table, a + b) == Replaces(table, a) + Replaces(table, b)
  {
  }

  /** What the loop of `insert_data_list` executes for one record: nothing
      when it is empty. */
  function Executed(table: string, data: Record): (calls: seq<Call>)
    ensures |calls| == if |data| == 0 then 0 else 1
  {
    if |data| == 0 then [] else [ExecuteRecord(Sql.Replace, table, data)]
  }

  lemma ReplacePlanStep(table: string, list: seq<Record>)
    requires list != []
    ensures CallsOf(ReplacePlan(table, list)) == Executed(table, list[0]) + CallsOf(ReplacePlan(table, list[1..]))
  {
    var head := if |list[0]| == 0 then [] else [Planned(ExecuteRecord(Sql.Replace, table, list[0]), SharedCursor, "execute")];
    assert ReplacePlan(table, list) == head + ReplacePlan(table, list[1..]);
    CallsOfConcat(head, ReplacePlan(table, list[1..]));
    assert CallsOf(head) == Executed(table, list[0]);
  }

  lemma ReplacesNonEmptyStep(table: string, list: seq<Record>)
    requires list != []
    ensures Replaces(table, NonEmpty(list)) == Executed(table, list[0]) + Replaces(table, NonEmpty(list[1..]))
  {
    var kept := if |list[0]| == 0 then [] else [list[0]];
    assert NonEmpty(list) == kept + NonEmpty(list[1..]);
    ReplacesConcat(table, kept, NonEmpty(list[1..]));
    assert Replaces(table, kept) == Executed(table, list[0]);
  }

  /** The loop of `insert_data_list` skips empty records and executes the
      others in their order. */
  lemma {:induction false} ReplacePlanSkipsEmpty(table: string, list: seq<Record>)
    ensures CallsOf(ReplacePlan(table, list)) == Replaces(table, NonEmpty(list))
    decreases |list|
  {
    if list != [] {
      ReplacePlanSkipsEmpty(table, list[1..]);
      ReplacePlanStep(table, list);
      ReplacesNonEmptyStep(table, list);
    }
  }

  /** The calls `insert_data_list` plans: one `REPLACE` per non-empty
      record, in order, then the commit. */
  function ListPlan(table: string, list: seq<Record>): (plan: seq<Planned>)
    ensures CallsOf(plan) == Replaces(table, NonEmpty(list)) + [Commit]
  {
    var plan := ReplacePlan(table, list) + [Planned(Commit, Conn, "commit")];
    ReplacePlanSkipsEmpty(table, list);
    CallsOfConcat(ReplacePlan(table, list), [Planned(Commit, Conn, "commit")]);
    plan
  }

  /** `insert_data_list(table_name, data_list)`: one `REPLACE` per non-empty
      record and a single commit at the end, all under one guard: the first
      exception stops the loop and becomes a rollback. The commit is issued
      even when every record is empty. */
  function InsertDataList(st: Store, table: string, list: seq<Record>, fails: nat -> Option<Exc>): (r: Effect)
    ensures r.error.Some? ==>
              || (|r.calls| > 0 && r.calls[|r.calls| - 1] == Rollback && fails(|r.calls| - 1) == r.error)
              || (!st.connection && r.error == Some(MissingAttribute("rollback")))
    ensures r.error.None? && Rollback !in r.calls ==> r.calls == Replaces(table, NonEmpty(list)) + [Commit]
    ensures st == Store(true, true) && (forall k :: 0 <= k <= |NonEmpty(list)| ==> fails(k).None?) ==>
              r == Effect(None, Replaces(table, NonEmpty(list)) + [Commit])
  {
    ListPlanGoesThrough(table, list, fails);
    Guarded(st, ListPlan(table, list), fails)
  }

  /** With both handles set and no call raising, the whole list plan goes
      out and nothing is rolled back. */
  lemma ListPlanGoesThrough(table: string, list: seq<Record>, fails: nat -> Option<Exc>)
    ensures (forall k :: 0 <= k <= |NonEmpty(list)| ==> fails(k).None?) ==>
              Guarded(Store(true, true), ListPlan(table, list), fails) == Effect(None, Replaces(table, NonEmpty(list)) + [Commit])
  {
    if forall k :: 0 <= k <= |NonEmpty(list)| ==> fails(k).None? {
      var st := Store(true, true);
      var plan := ListPlan(table, list);
      assert |plan| == |NonEmpty(list)| + 1 by {
        assert |CallsOf(plan)| == |Replaces(table, NonEmpty(list)) + [Commit]|;
      }
      assert forall i :: 0 <= i < |plan| ==> Holds(st, plan[i].via);
      PerformAll(st, plan, fails, 0);
    }
  }

  /** The first failing call stops `insert_data_list`: the executes before
      it and the failing call were issued, then the rollback, and the error
      is swallowed unless the rollback fails too. */
  lemma InsertDataListStopsAtFailure(table: string, list: seq<Record>, fails: nat -> Option<Exc>, k: nat)
    requires k <= |NonEmpty(list)|
    requires forall j :: 0 <= j < k ==> fails(j).None?
    requires fails(k).Some?
    ensures InsertDataList(Store(true, true), table, list, fails)
              == Effect(fails(k + 1), (Replaces(table, NonEmpty(list)) + [Commit])[..k + 1] + [Rollback])
  {
    var plan := ListPlan(table, list);
    GuardedRollsBack(Store(true, true), plan, fails, k);
  }

  /** A list holding one non-empty record does what `insert_data` does with
      that record. */
  lemma SingleListIsInsertData(st: Store, table: string, data: Record, fails: nat -> Option<Exc>)
    requires |data| > 0
    ensures InsertDataList(st, table, [data], fails) == InsertData(st, table, data, fails)
  {
    assert [data][1..] == [];
    assert ListPlan(table, [data]) == ReplaceOne(table, data);
  }

  /** An empty list still commits. */
  lemma EmptyListCommits(table: string, fails: nat -> Option<Exc>)
    requires fails(0).None?
    ensures InsertDataList(Store(true, true), table, [], fails) == Effect(None, [Commit])
  {
  }

  /** `disconnect()`: closes the cursor if it is set, then the connection if
      it is set. Neither is cleared, so a second call closes them again. */
  function Disconnect(st: Store, fails: nat -> Option<Exc>): (r: Effect)
    ensures CloseCursor in r.calls ==> st.cursor
    ensures CloseConnection in r.calls ==> st.connection
    ensures r.error.Some? ==> |r.calls| > 0 && r.error == fails(|r.calls| - 1)
    ensures fails(0).None? && fails(1).None? ==>
              r == Effect(None, (if st.cursor then [CloseCursor] else []) + (if st.connection then [CloseConnection] else []))
    ensures r.error.None? ==>
              r.calls == (if st.cursor then [CloseCursor] else []) + (if st.connection then [CloseConnection] else [])
    ensures st.cursor && fails(0).Some? ==> r == Effect(fails(0), [CloseCursor])
    ensures !st.cursor && st.connection && fails(0).Some? ==> r == Effect(fails(0), [CloseConnection])
    ensures st.cursor && st.connection && fails(0).None? && fails(1).Some? ==>
              r == Effect(fails(1), [CloseCursor, CloseConnection])
  {
    var plan := (if st.cursor then [Planned(CloseCursor, SharedCursor, "close")] else [])
              + (if st.connection then [Planned(CloseConnection, Conn, "close")] else []);
    if fails(0).None? && fails(1).None? then
      PerformAll(st, plan, fails, 0);
      Perform(st, plan, fails, 0)
    else
      Perform(st, plan, fails, 0)
  }

  /** Before a successful connect, every write method that reaches the
      database fails on a None attribute without issuing any call; an
      `insert_data` of a non-empty record fails in its except clause. */
  lemma NothingIssuedWithoutConnection(table: string, data: Record, list: seq<Record>, fails: nat -> Option<Exc>)
    requires |data| > 0 && |list| > 0
    ensures Insert(Fresh, table, data, fails) == Effect(Some(MissingAttribute("cursor")), [])
    ensures InsertMany(Fresh, table, list, fails) == Effect(Some(MissingAttribute("cursor")), [])
    ensures InsertData(Fresh, table, data, fails) == Effect(Some(MissingAttribute("rollback")), [])
    ensures InsertDataList(Fresh, table, list, fails) == Effect(Some(MissingAttribute("rollback")), [])
    ensures Disconnect(Fresh, fails) == Effect(None, [])
  {
    var plan := ListPlan(table, list);
    assert !Holds(Fresh, plan[0].via);
  }
}

=== FILE: logging.dfy ===
/** `src/models/logger.py`: the `Logger` class over Python's root logger and
    the `log_decorator` wrapper. The root logger is modelled as a value that
    keeps the entries it accepts; the file system, the clock and the
    `logging` module are replaced by parameters. */
module Logging {
  import opened Common

  datatype Level = Info | Warning | Error

  /** The numeric values of `logging.INFO`, `logging.WARNING`, `logging.ERROR`. */
  function Severity(l: Level): nat
  {
    match l
    case Info => 20
    case Warning => 30
    case Error => 40
  }

  datatype Entry = Entry(level: Level, message: string)

  /** The `Logger` object together with the root logger it configures:
      `logFile` is `self.log_file`; `threshold` is the root logger's level,
      INFO once `basicConfig` succeeded and Python's default WARNING
      otherwise; `entries` are the records the root logger accepted. */
  datatype Logger = Logger(logFile: Option<string>, threshold: Level, entries: seq<Entry>)

  /** `Logger.log`: `logging.log(level, message)`, which keeps the record
      only when its level reaches the root logger's threshold. */
  function Log(l: Logger, message: string, level: Level): (r: Logger)
    ensures r.logFile == l.logFile && r.threshold == l.threshold
    ensures Severity(level) >= Severity(l.threshold) ==> r.entries == l.entries + [Entry(level, message)]
    ensures Severity(level) < Severity(l.threshold) ==> r.entries == l.entries
  {
    if Severity(level) >= Severity(l.threshold) then l.(entries := l.entries + [Entry(level, message)]) else l
  }

  /** `Logger.log_info`: kept exactly when the logger was configured. */
  function LogInfo(l: Logger, message: string): (r: Logger)
    ensures l.threshold == Info ==> r.entries == l.entries + [Entry(Info, message)]
    ensures l.threshold != Info ==> r == l
    ensures r.logFile == l.logFile && r.threshold == l.threshold
  {
    Log(l, message, Info)
  }

  /** `Logger.log_warning`: kept unless the threshold is above WARNING. */
  function LogWarning(l: Logger, message: string): (r: Logger)
    ensures l.threshold != Error ==> r.entries == l.entries + [Entry(Warning, message)]
    ensures l.threshold == Error ==> r == l
    ensures r.logFile == l.logFile && r.threshold == l.threshold
  {
    Log(l, message, Warning)
  }

  /** `Logger.log_error`: ERROR is the highest level, so the record is
      always kept. */
  function LogError(l: Logger, message: string): (r: Logger)
    ensures r.entries == l.entries + [Entry(Error, message)]
    ensures r.logFile == l.logFile && r.threshold == l.threshold
  {
    Log(l, message, Error)
  }

  /** The exception classes `setup_logging` tells apart. */
  datatype FaultKind = FileMissing | OtherOsError | OtherException

  /** An exception raised by one step of `setup_logging`, with its `str()`. */
  datatype Fault = Fault(kind: FaultKind, detail: string)

  /** The console message printed by each except clause: FileNotFoundError
      is an OSError, so it is tested first. */
  datatype Notice = DirectoryMissing(detail: string) | CannotCreateDirectory(detail: string) | ConfigurationFailed(detail: string)

  /** The console line each notice prints. */
  function NoticeText(n: Notice): string
  {
    match n
    case DirectoryMissing(d) => "日志目录不存在: " + d
    case CannotCreateDirectory(d) => "无法创建日志目录: " + d
    case ConfigurationFailed(d) => "日志配置失败: " + d
  }

  function NoticeFor(f: Fault): (n: Notice)
    ensures n.detail == f.detail
    ensures n.DirectoryMissing? <==> f.kind == FileMissing
    ensures n.ConfigurationFailed? <==> f.kind == OtherException
    ensures |NoticeText(n)| >= |f.detail| && NoticeText(n)[|NoticeText(n)| - |f.detail|..] == f.detail
  {
    match f.kind
    case FileMissing => DirectoryMissing(f.detail)
    case OtherOsError => CannotCreateDirectory(f.detail)
    case OtherException => ConfigurationFailed(f.detail)
  }

  /** Whether `os.path.join` puts a `/` after `directory`: it does unless
      the directory is empty or already ends with one. */
  predicate NeedsSeparator(directory: string)
  {
    directory != [] && directory[|directory| - 1] != '/'
  }

  /** `os.path.join(directory, name)` for a relative `name`: the directory,
      one separator exactly when it needs one, then the name. */
  function PathJoin(directory: string, name: string): (path: string)
    ensures path == directory + name || path == directory + "/" + name
    ensures |path| == |directory| + |name| + (if NeedsSeparator(directory) then 1 else 0)
    ensures path[|path| - |name|..] == name
  {
    if NeedsSeparator(directory) then directory + "/" + name else directory + name
  }

  /** The logger after construction and whatever `setup_logging` printed. */
  datatype Setup = Setup(logger: Logger, printed: Option<Notice>)

  /** `Logger(log_directory)`: `log_file` starts as None and `setup_logging`
      runs. `present` is `os.path.exists(log_directory)`, `date` is today's
      `%Y-%m-%d`, `makeDirs` and `configure` say whether `os.makedirs` and
      `logging.basicConfig` raise. The except clauses catch everything, so
      the result is always a logger. */
  function NewLogger(directory: string, present: bool, date: string, makeDirs: Option<Fault>, configure: Option<Fault>): (r: Setup)
    ensures r.logger.entries == []
    ensures r.logger.logFile.None? <==> !present && makeDirs.Some?
    ensures r.logger.logFile.Some? ==>
              r.logger.logFile.value == PathJoin(directory, date + ".log")
    ensures r.printed.None? <==> r.logger.threshold == Info
    ensures r.printed.None? <==> (present || makeDirs.None?) && configure.None?
    ensures !present && makeDirs.Some? ==> r.printed == Some(NoticeFor(makeDirs.value))
    ensures (present || makeDirs.None?) && configure.Some? ==> r.printed == Some(NoticeFor(configure.value))
  {
    if !present && makeDirs.Some? then
      Setup(Logger(None, Warning, []), Some(NoticeFor(makeDirs.value)))
    else
      var path := PathJoin(directory, date + ".log");
      if configure.Some? then Setup(Logger(Some(path), Warning, []), Some(NoticeFor(configure.value)))
      else Setup(Logger(Some(path), Info, []), None)
  }

  /** A positional argument as the decorator inspects it: its class name and
      the attribute names `hasattr` can find on it. */
  datatype Arg = Arg(className: string, attributes: set<string>)

  /** The name the decorator logs: `Class.method` when the first positional
      argument has an attribute named like the wrapped function, otherwise
      the bare function name. */
  function QualifiedName(func: string, args: seq<Arg>): (name: string)
    ensures |args| > 0 && func in args[0].attributes ==> name == args[0].className + "." + func
    ensures !(|args| > 0 && func in args[0].attributes) ==> name == func
  {
    if |args| > 0 && func in args[0].attributes then args[0].className + "." + func else func
  }

  function StartMessage(name: string): string { "Starting '" + name + "'..." }
  function FinishMessage(name: string): string { "Finished '" + name + "' successfully." }
  function ErrorMessage(name: string, e: Exc): string { "Error occurred in '" + name + "': " + e.Text() }

  /** How the wrapped function ended, with the records it logged itself.
      The function logs through the same root logger, so these are the
      records that logger kept, already filtered by its threshold. None of
      the decorated methods of the core logs anything itself. */
  datatype Call<+T> = Returns(value: T, logged: seq<Entry>) | Throws(error: Exc, logged: seq<Entry>)

  /** What the wrapper hands back to its caller. */
  datatype Completion<+T> = Normal(value: T) | Abrupt(error: Exc)

  datatype Traced<+T> = Traced(logger: Logger, completion: Completion<T>)

  /** `log_decorator(func)(*args)`: log the start, run the function, then
      log success and return its result, or log the error and re-raise. */
  function Decorated<T>(l: Logger, func: string, args: seq<Arg>, call: Call<T>): (r: Traced<T>)
    ensures r.logger.logFile == l.logFile && r.logger.threshold == l.threshold
    ensures call.Returns? ==> r.completion == Normal(call.value)
    ensures call.Throws? ==> r.completion == Abrupt(call.error)
    ensures l.threshold == Info ==>
              var name := QualifiedName(func, args);
              r.logger.entries == l.entries + [Entry(Info, StartMessage(name))] + call.logged
                + [if call.Returns? then Entry(Info, FinishMessage(name)) else Entry(Error, ErrorMessage(name, call.error))]
    ensures call.Throws? ==>
              |r.logger.entries| > 0 && r.logger.entries[|r.logger.entries| - 1] == Entry(Error, ErrorMessage(QualifiedName(func, args), call.error))
  {
    var name := QualifiedName(func, args);
    var started := LogInfo(l, StartMessage(name));
    var ran := started.(entries := started.entries + call.logged);
    match call
    case Returns(v, _) => Traced(LogInfo(ran, FinishMessage(name)), Normal(v))
    case Throws(e, _) => Traced(LogError(ran, ErrorMessage(name, e)), Abrupt(e))
  }

  /** With a configured logger, each wrapped call adds exactly two entries of
      its own around the function's entries, the start entry first. */
  lemma TwoEntriesPerCall<T>(l: Logger, func: string, args: seq<Arg>, call: Call<T>)
    requires l.threshold == Info
    ensures var r := Decorated(l, func, args, call);
      && |r.logger.entries| == |l.entries| + |call.logged| + 2
      && r.logger.entries[|l.entries|] == Entry(Info, StartMessage(QualifiedName(func, args)))
  {
  }

  /** Without a configured logger the INFO entries are dropped: a normal
      return leaves no trace of the wrapper, an exception leaves only its
      error entry. */
  lemma UnconfiguredKeepsOnlyErrors<T>(l: Logger, func: string, args: seq<Arg>, call: Call<T>)
    requires l.threshold == Warning
    ensures var r := Decorated(l, func, args, call);
      r.logger.entries == l.entries + call.logged
        + (if call.Throws? then [Entry(Error, ErrorMessage(QualifiedName(func, args), call.error))] else [])
  {
  }
}

=== FILE: retry.dfy ===
/** The retry loop shared by `Scraper.fetch_page` (both branches),
    `Scraper.post_page` and `MySQLDatabase.connect`:

        for retry in range(max_retries):
            try:
                <attempt>; on a result: <maybe sleep>; <produce it>; return/break
            except <handled>:
                if retry is the last one: return None / raise
                <sleep>

    The outside world is an oracle `steps` saying how attempt number `i`
    ends; producing the result can itself raise, after the sleep. The loop
    returns its outcome together with a trace of the attempts it made and
    the sleeps it took; sleep durations are random floats in the source and
    only their kind is kept. */
module Retry {
  import opened Common


  /** The three kinds of sleep: `uniform(1, 3)`, `uniform(1, 3) * 10`, `30`. */
  datatype Pause = Jitter | Backoff10x | Wait30

  /** How one attempt ends, as seen by the loop body. */
  datatype Step<+T> =
    | Done(value: T)        // a result: the loop ends with it
    | Again                 // no result and no exception: next iteration at once
    | Caught(error: Exc)    // the except clause handles the exception
    | CaughtLate(error: Exc) // the result was there and the sleep before returning it was
                            // taken, then producing it raised; the except clause handles it
    | Escaped(error: Exc)   // no except clause matches: the exception leaves the loop

  /** What the except clause does on the final attempt. */
  datatype Exhaustion = GiveUp | Reraise

  /** The parts in which the loops differ: the sleep before returning a
      result, the sleep after a handled failure, and the final failure. */
  datatype Policy = Policy(afterSuccess: Option<Pause>, afterFailure: Pause, onLastFailure: Exhaustion)

  /** One attempt: the request sent and the sleeps taken from its start to
      the start of the next attempt (or the end of the loop), in order. */
  datatype Round<+R> = Round(request: R, pauses: seq<Pause>)

  /** A Python call either returns (possibly None) or raises. */
  datatype Outcome<+T> = Returned(value: Option<T>) | Raised(error: Exc)

  /** The outcome of the loop and its rounds, attempt `k` at position `k`. */
  datatype Run<+T, +R> = Run(outcome: Outcome<T>, rounds: seq<Round<R>>)

  /** The steps after which the loop goes on to the next attempt, unless it
      was the last one. */
  predicate Continues<T>(s: Step<T>)
  {
    s.Again? || s.Caught? || s.CaughtLate?
  }

  /** Whether attempt `i` of `n` hands over to attempt `i + 1`. */
  predicate GoesOn<T>(n: nat, i: nat, s: Step<T>)
  {
    i < n - 1 && Continues(s)
  }

  /** The sleep taken once a result is there, before it is returned. */
  function ReturnSleep(p: Policy): seq<Pause>
  {
    if p.afterSuccess.Some? then [p.afterSuccess.value] else []
  }

  /** The sleeps of an attempt that hands over: a handled failure sleeps
      (after the sleep-before-return when the failure came that late), an
      empty result goes round again at once. */
  function PauseAfter<T>(p: Policy, s: Step<T>): seq<Pause>
  {
    match s
    case Caught(_) => [p.afterFailure]
    case CaughtLate(_) => ReturnSleep(p) + [p.afterFailure]
    case _ => []
  }

  /** A handled failure on the last attempt: give up or re-raise. */
  function Exhausted<T>(p: Policy, e: Exc): Outcome<T>
  {
    if p.onLastFailure == GiveUp then Returned(None) else Raised(e)
  }

  /** How the loop ends after an attempt that does not hand over: the
      outcome, and the sleeps of that attempt. A handled failure on the last
      attempt gives up or re-raises without a further sleep; running out of
      attempts after an empty result falls through to `return None`. */
  function Ending<T>(p: Policy, s: Step<T>): (Outcome<T>, seq<Pause>)
  {
    match s
    case Done(v) => (Returned(Some(v)), ReturnSleep(p))
    case Again => (Returned(None), [])
    case Caught(e) => (Exhausted(p, e), [])
    case CaughtLate(e) => (Exhausted(p, e), ReturnSleep(p))
    case Escaped(e) => (Raised(e), [])
  }

  /** Iterations `i`, `i + 1`, ..., `n - 1` of the loop. */
  function Loop<T, R>(p: Policy, n: nat, req: R, steps: nat -> Step<T>, i: nat): (r: Run<T, R>)
    requires i <= n
    ensures |r.rounds| <= n - i
    ensures |r.rounds| == 0 <==> i == n
    decreases n - i
  {
    if i == n then Run(Returned(None), [])
    else if GoesOn(n, i, steps(i)) then
      var rest := Loop(p, n, req, steps, i + 1);
      Run(rest.outcome, [Round(req, PauseAfter(p, steps(i)))] + rest.rounds)
    else
      Run(Ending(p, steps(i)).0, [Round(req, Ending(p, steps(i)).1)])
  }

  /** Every round sends the same request. */
  lemma {:induction false} LoopRequests<T, R>(p: Policy, n: nat, req: R, steps: nat -> Step<T>, i: nat)
    requires i <= n
    ensures forall k :: 0 <= k < |Loop(p, n, req, steps, i).rounds| ==> Loop(p, n, req, steps, i).rounds[k].request == req
    decreases n - i
  {
    if i < n && GoesOn(n, i, steps(i)) {
      LoopRequests(p, n, req, steps, i + 1);
    }
  }

  /** Every round but the last is an attempt that handed over, followed by
      its sleep. */
  lemma {:induction false} LoopPrefix<T, R>(p: Policy, n: nat, req: R, steps: nat -> Step<T>, i: nat)
    requires i <= n
    ensures var r := Loop(p, n, req, steps, i);
      forall j :: i <= j < i + |r.rounds| - 1 ==> GoesOn(n, j, steps(j)) && r.rounds[j - i].pauses == PauseAfter(p, steps(j))
    decreases n - i
  {
    if i < n && GoesOn(n, i, steps(i)) {
      LoopPrefix(p, n, req, steps, i + 1);
      var rest := Loop(p, n, req, steps, i + 1);
      assert Loop(p, n, req, steps, i).rounds == [Round(req, PauseAfter(p, steps(i)))] + rest.rounds;
    }
  }

  /** The last round is an attempt that did not hand over, and it decides
      the outcome and the last sleep. */
  lemma {:induction false} LoopLast<T, R>(p: Policy, n: nat, req: R, steps: nat -> Step<T>, i: nat)
    requires i <= n
    ensures var r := Loop(p, n, req, steps, i);
      |r.rounds| == 0 ==> r.outcome == Returned(None)
    ensures var r := Loop(p, n, req, steps, i);
      |r.rounds| > 0 ==>
        var j := i + |r.rounds| - 1;
        && !GoesOn(n, j, steps(j))
        && r.outcome == Ending(p, steps(j)).0
        && r.rounds[|r.rounds| - 1].pauses == Ending(p, steps(j)).1
    decreases n - i
  {
    if i < n && GoesOn(n, i, steps(i)) {
      LoopLast(p, n, req, steps, i + 1);
      var rest := Loop(p, n, req, steps, i + 1);
      assert Loop(p, n, req, steps, i) == Run(rest.outcome, [Round(req, PauseAfter(p, steps(i)))] + rest.rounds);
    }
  }

  /** `range(maxRetries)`: no iteration at all when `maxRetries <= 0`. */
  function Bound(maxRetries: int): nat
  {
    if maxRetries < 0 then 0 else maxRetries
  }

  /** `r` is a run of the loop with `n` iterations, described round by
      round: there are at most `n` rounds and none only when `n` is 0; every
      round sends `req`; each round but the last handed over and slept as
      its step asks; the last round did not hand over and its step decides
      the outcome and its sleeps. */
  ghost predicate Describes<T, R>(p: Policy, n: nat, req: R, steps: nat -> Step<T>, r: Run<T, R>)
  {
    && |r.rounds| <= n
    && (|r.rounds| == 0 <==> n == 0)
    && (|r.rounds| == 0 ==> r.outcome == Returned(None))
    && (forall k :: 0 <= k < |r.rounds| ==> r.rounds[k].request == req)
    && (forall j :: 0 <= j < |r.rounds| - 1 ==>
          GoesOn(n, j, steps(j)) && r.rounds[j].pauses == PauseAfter(p, steps(j)))
    && (|r.rounds| > 0 ==>
          && !GoesOn(n, |r.rounds| - 1, steps(|r.rounds| - 1))
          && r.outcome == Ending(p, steps(|r.rounds| - 1)).0
          && r.rounds[|r.rounds| - 1].pauses == Ending(p, steps(|r.rounds| - 1)).1)
  }

  /** The loop from its first iteration fits the description. */
  lemma LoopDescribed<T, R>(p: Policy, n: nat, req: R, steps: nat -> Step<T>)
    ensures Describes(p, n, req, steps, Loop(p, n, req, steps, 0))
  {
    var r := Loop(p, n, req, steps, 0);
    LoopRequests(p, n, req, steps, 0);
    LoopPrefix(p, n, req, steps, 0);
    LoopLast(p, n, req, steps, 0);
    forall j | 0 <= j < |r.rounds| - 1
      ensures GoesOn(n, j, steps(j)) && r.rounds[j].pauses == PauseAfter(p, steps(j))
    {
      assert 0 <= j < 0 + |r.rounds| - 1;
    }
  }

  /** The whole loop, `for retry in range(maxRetries)`: no round at all when
      `maxRetries` is not positive, the same request in every round, a
      result only from the last round's step, and an exception only from
      the last round's step too, one no except clause handled when the
      policy gives up at the end. `AttemptsDescribed` has the rest. */
  function Attempts<T, R>(p: Policy, maxRetries: int, req: R, steps: nat -> Step<T>): (r: Run<T, R>)
    ensures |r.rounds| <= Bound(maxRetries)
    ensures |r.rounds| == 0 <==> maxRetries <= 0
    ensures |r.rounds| == 0 ==> r.outcome == Returned(None)
    ensures forall k :: 0 <= k < |r.rounds| ==> r.rounds[k].request == req
    ensures r.outcome.Returned? && r.outcome.value.Some? ==>
              |r.rounds| > 0 && steps(|r.rounds| - 1) == Done(r.outcome.value.value)
    ensures r.outcome.Raised? ==>
              && |r.rounds| > 0
              && !steps(|r.rounds| - 1).Done? && !steps(|r.rounds| - 1).Again?
              && r.outcome.error == steps(|r.rounds| - 1).error
              && (p.onLastFailure == GiveUp ==> steps(|r.rounds| - 1).Escaped?)
  {
    LoopDescribed(p, Bound(maxRetries), req, steps);
    Loop(p, Bound(maxRetries), req, steps, 0)
  }

  /** The whole loop, round by round. */
  lemma AttemptsDescribed<T, R>(p: Policy, maxRetries: int, req: R, steps: nat -> Step<T>)
    ensures Describes(p, Bound(maxRetries), req, steps, Attempts(p, maxRetries, req, steps))
  {
    LoopDescribed(p, Bound(maxRetries), req, steps);
  }

  /** The first attempt that produces a result ends the loop with that
      result, after exactly as many attempts as it took; the rounds before
      it slept as their steps asked, and the policy's sleep-before-return
      follows it. */
  lemma FirstDoneWins<T, R>(p: Policy, n: nat, req: R, steps: nat -> Step<T>, k: nat)
    requires k < n
    requires steps(k).Done?
    requires forall j :: 0 <= j < k ==> Continues(steps(j))
    ensures Attempts(p, n, req, steps).outcome == Returned(Some(steps(k).value))
    ensures |Attempts(p, n, req, steps).rounds| == k + 1
    ensures Attempts(p, n, req, steps).rounds[k].pauses == ReturnSleep(p)
    ensures forall j :: 0 <= j < k ==> Attempts(p, n, req, steps).rounds[j].pauses == PauseAfter(p, steps(j))
  {
    AttemptsDescribed(p, n, req, steps);
  }

  /** The first unhandled exception ends the loop and propagates, with no
      sleep after it. */
  lemma FirstEscapeRaises<T, R>(p: Policy, n: nat, req: R, steps: nat -> Step<T>, k: nat)
    requires k < n
    requires steps(k).Escaped?
    requires forall j :: 0 <= j < k ==> Continues(steps(j))
    ensures Attempts(p, n, req, steps).outcome == Raised(steps(k).error)
    ensures |Attempts(p, n, req, steps).rounds| == k + 1
    ensures Attempts(p, n, req, steps).rounds[k].pauses == []
  {
    AttemptsDescribed(p, n, req, steps);
  }

  /** When every attempt fails with a handled exception, the loop makes all
      its attempts, sleeps after each one but the last, and then gives up
      or re-raises the last exception. */
  lemma AllCaught<T, R>(p: Policy, n: nat, req: R, steps: nat -> Step<T>)
    requires n > 0
    requires forall j :: 0 <= j < n ==> steps(j).Caught?
    ensures Attempts(p, n, req, steps).outcome == Exhausted(p, steps(n - 1).error)
    ensures |Attempts(p, n, req, steps).rounds| == n
    ensures forall k :: 0 <= k < n ==>
              Attempts(p, n, req, steps).rounds[k].pauses == if k < n - 1 then [p.afterFailure] else []
  {
    AttemptsDescribed(p, n, req, steps);
  }

  /** When no attempt yields a result or raises, the loop runs out without
      sleeping at all and falls through to `return None`. */
  lemma NeverDone<T, R>(p: Policy, n: nat, req: R, steps: nat -> Step<T>)
    requires forall j :: 0 <= j < n ==> steps(j).Again?
    ensures Attempts(p, n, req, steps).outcome == Returned(None)
    ensures |Attempts(p, n, req, steps).rounds| == n
    ensures forall k :: 0 <= k < n ==> Attempts(p, n, req, steps).rounds[k].pauses == []
  {
    AttemptsDescribed(p, n, req, steps);
  }
}

=== FILE: scraper.dfy ===
/** `src/models/scraper.py`: the `Scraper` class. Network calls, the browser
    and `time.sleep` are replaced by the retry engine of module Retry and by
    oracles that say how each attempt ends. */
module Scraper {
  import opened Common
  import opened Retry
  import UserAgent
  import Logging

  /** `self.max_retries`. */
  const MaxRetries: nat := 3

  /** `timeout=10` on every HTTP call. */
  const Timeout: nat := 10

  /** A parsed page, kept as the text it was parsed from. */
  datatype Document = Document(html: string)

  datatype Response = Response(status: int, body: string)

  /** What reading the content a second time gives. `response.content` is
      read from the same response object both times, so requests mode
      ignores this. Selenium mode reads `driver.page_source` again after the
      sleep: the browser may have re-rendered the page by then, or the read
      may raise. */
  datatype Reread = Unchanged | Rerendered(text: string) | RereadThrows(error: Exc)

  /** How one `requests.get(...)` or `driver.get(url)` attempt ends: it raises
      (in selenium mode, also when the first `page_source` read raises), or
      the content (`response.content`, `driver.page_source`) is there to
      read, together with what a second read gives. */
  datatype PageAnswer = PageThrows(error: Exc) | Page(content: string, reread: Reread)

  /** How one `requests.post(...)` attempt ends. */
  datatype PostAnswer = PostThrows(error: Exc) | Reply(response: Response)

  /** What one attempt sends. */
  datatype Request =
    | HttpGet(url: string, headers: map<string, string>, proxies: Option<map<string, string>>, timeout: nat)
    | BrowserGet(url: string)
    | HttpPost(url: string, postHeaders: Option<map<string, string>>, json: Option<map<string, string>>, timeout: nat)

  /** A `Scraper` instance; `driver` is the argument list of the Chrome
      session it launched, if any. */
  datatype Scraper = Scraper(kind: string, userAgent: string, proxy: Option<string>, driver: Option<seq<string>>)

  /** Python truthiness of an optional string. */
  predicate Truthy(s: Option<string>)
  {
    s.Some? && s.value != ""
  }

  /** The ChromeOptions arguments: a proxy server when one is given, then
      headless mode when asked for. */
  function ChromeArguments(proxy: Option<string>, headless: bool): (args: seq<string>)
    ensures "--headless" in args <==> headless
    ensures Truthy(proxy) ==> |args| > 0 && args[0] == "--proxy-server=" + proxy.value
    ensures |args| == (if Truthy(proxy) then 1 else 0) + (if headless then 1 else 0)
  {
    (if Truthy(proxy) then ["--proxy-server=" + proxy.value] else []) + (if headless then ["--headless"] else [])
  }

  /** `Scraper(scraper_type, proxy, headless)`, with the random draws of
      `_random_user_agent` given as `c`. Only the `'selenium'` type starts a
      browser. */
  function New(kind: string, proxy: Option<string>, headless: bool, c: UserAgent.Choice): (s: Scraper)
    requires UserAgent.Valid(c)
    ensures s.kind == kind && s.proxy == proxy
    ensures s.userAgent == UserAgent.RandomUserAgent(c)
    ensures s.driver.Some? <==> kind == "selenium"
    ensures s.driver.Some? ==> s.driver.value == ChromeArguments(proxy, headless)
  {
    Scraper(kind, UserAgent.RandomUserAgent(c), proxy,
            if kind == "selenium" then Some(ChromeArguments(proxy, headless)) else None)
  }

  /** The `user_agent_header` property. */
  function UserAgentHeader(s: Scraper): (h: map<string, string>)
    ensures h.Keys == {"User-Agent"} && h["User-Agent"] == s.userAgent
  {
    map["User-Agent" := s.userAgent]
  }

  /** `proxies` in `fetch_page`: both schemes through the proxy, or None. */
  function Proxies(proxy: Option<string>): (r: Option<map<string, string>>)
    ensures r.Some? <==> Truthy(proxy)
    ensures r.Some? ==> r.value.Keys == {"http", "https"} && r.value["http"] == proxy.value && r.value["https"] == proxy.value
  {
    if Truthy(proxy) then Some(map["http" := proxy.value, "https" := proxy.value]) else None
  }

  /** Requests mode: jitter before returning a page, ten times the jitter
      after a failure. */
  const RequestsFetch: Policy := Policy(Some(Jitter), Backoff10x, GiveUp)

  /** Selenium mode: the failure sleep is a single jitter. */
  const BrowserFetch: Policy := Policy(Some(Jitter), Jitter, GiveUp)

  /** `post_page`: no sleep before returning the response. */
  const Posting: Policy := Policy(None, Backoff10x, GiveUp)

  /** The branch `fetch_page` takes: requests mode, or selenium mode with a
      live driver; anything else makes no attempt at all. */
  predicate Fetches(s: Scraper)
  {
    s.kind == "requests" || (s.kind == "selenium" && s.driver.Some?)
  }

  /** Whether the branch's except clause handles `e`: requests mode catches
      `RequestException` only, selenium mode catches every `Exception`. */
  predicate Handles(s: Scraper, e: Exc)
  {
    s.kind == "requests" ==> e.IsRequestException()
  }

  /** The document an attempt with non-empty content returns: the checked
      content in requests mode, and the second `page_source` read in
      selenium mode. */
  function Served(s: Scraper, content: string, reread: Reread): Document
  {
    if s.kind != "requests" && reread.Rerendered? then Document(reread.text) else Document(content)
  }

  /** One iteration of `fetch_page`'s loop: non-empty content is a result,
      empty content goes round again, an exception is handled or escapes.
      In selenium mode the second read comes after the sleep, so a failure
      there is handled late. */
  function PageStep(s: Scraper, a: PageAnswer): (st: Step<Document>)
    ensures st.Done? ==> a.Page? && |a.content| > 0 && st.value == Served(s, a.content, a.reread)
    ensures st.Again? <==> a.Page? && a.content == ""
    ensures st.Caught? ==> a.PageThrows? && Handles(s, st.error)
    ensures st.CaughtLate? ==> s.kind != "requests" && a.Page? && a.reread == RereadThrows(st.error)
    ensures st.Escaped? ==> a.PageThrows? && !Handles(s, st.error)
    ensures a.PageThrows? ==> (st.Caught? || st.Escaped?) && st.error == a.error && (st.Caught? <==> Handles(s, a.error))
    ensures a.Page? && |a.content| > 0 ==>
              (st.CaughtLate? <==> s.kind != "requests" && a.reread.RereadThrows?) && (st.Done? || st.CaughtLate?)
  {
    match a
    case Page(content, reread) =>
      if |content| == 0 then Again
      else if s.kind == "requests" then Done(Document(content))
      else (
        match reread
        case Unchanged => Done(Document(content))
        case Rerendered(text) => Done(Document(text))
        case RereadThrows(e) => CaughtLate(e))
    case PageThrows(e) => if Handles(s, e) then Caught(e) else Escaped(e)
  }

  /** The sleeps of the branch `fetch_page` takes. */
  function FetchPolicy(s: Scraper): Policy
  {
    if s.kind == "requests" then RequestsFetch else BrowserFetch
  }

  /** `Scraper.fetch_page(url)`. */
  function FetchPage(s: Scraper, url: string, answers: nat -> PageAnswer): (r: Run<Document, Request>)
    ensures |r.rounds| <= MaxRetries
    ensures !Fetches(s) ==> r == Run(Returned(None), [])
    ensures r.outcome.Returned? && r.outcome.value.Some? ==>
              && |r.rounds| > 0
              && var a := answers(|r.rounds| - 1);
                 a.Page? && |a.content| > 0 && r.outcome.value.value == Served(s, a.content, a.reread)
    ensures s.kind == "requests" && r.outcome.Returned? && r.outcome.value.Some? ==> |r.outcome.value.value.html| > 0
    ensures r.outcome.Raised? ==> s.kind == "requests" && !r.outcome.error.IsRequestException()
    ensures s.kind == "requests" ==>
              forall k :: 0 <= k < |r.rounds| ==>
                r.rounds[k].request == HttpGet(url, UserAgentHeader(s), Proxies(s.proxy), Timeout)
    ensures s.kind != "requests" ==> forall k :: 0 <= k < |r.rounds| ==> r.rounds[k].request == BrowserGet(url)
  {
    if !Fetches(s) then Run(Returned(None), [])
    else
      var steps := (j: nat) => PageStep(s, answers(j));
      var policy := FetchPolicy(s);
      var req := if s.kind == "requests" then HttpGet(url, UserAgentHeader(s), Proxies(s.proxy), Timeout) else BrowserGet(url);
      var r := Attempts(policy, MaxRetries, req, steps);
      if |r.rounds| > 0 then
        assert steps(|r.rounds| - 1) == PageStep(s, answers(|r.rounds| - 1));
        r
      else r
  }

  const PostOnlyWithRequests: string := "POST requests are only supported with the 'requests' scraper type."

  /** One iteration of `post_page`'s loop: `raise_for_status` raises an
      `HTTPError`, a `RequestException`, for a status in [400, 600). */
  function PostStep(url: string, a: PostAnswer): (st: Step<Response>)
    ensures st.Done? ==> !(400 <= st.value.status < 600)
    ensures st.Caught? ==> st.error.IsRequestException()
    ensures st.Escaped? ==> !st.error.IsRequestException()
    ensures a.Reply? ==> (st.Done? <==> !(400 <= a.response.status < 600)) && (st.Done? ==> st.value == a.response)
    ensures a.Reply? && !st.Done? ==> st == Caught(HttpStatusError(a.response.status, url))
    ensures a.PostThrows? ==> (st.Caught? || st.Escaped?) && st.error == a.error && (st.Caught? <==> a.error.IsRequestException())
  {
    match a
    case Reply(resp) =>
      if 400 <= resp.status < 600 then Caught(HttpStatusError(resp.status, url)) else Done(resp)
    case PostThrows(e) => if e.IsRequestException() then Caught(e) else Escaped(e)
  }

  /** `Scraper.post_page(url, post_headers, data_post)`. The caller's headers
      are sent as they are: the user agent is not added. */
  function PostPage(s: Scraper, url: string, headers: Option<map<string, string>>, data: Option<map<string, string>>,
                    answers: nat -> PostAnswer): (r: Run<Response, Request>)
    ensures s.kind != "requests" ==> r == Run(Raised(NotImplemented(PostOnlyWithRequests)), [])
    ensures |r.rounds| <= MaxRetries
    ensures r.outcome.Returned? && r.outcome.value.Some? ==> !(400 <= r.outcome.value.value.status < 600)
    ensures r.outcome.Raised? && s.kind == "requests" ==> !r.outcome.error.IsRequestException()
    ensures forall k :: 0 <= k < |r.rounds| ==> r.rounds[k].request == HttpPost(url, headers, data, Timeout)
    ensures forall k :: 0 <= k < |r.rounds| ==> Jitter !in r.rounds[k].pauses
  {
    if s.kind != "requests" then Run(Raised(NotImplemented(PostOnlyWithRequests)), [])
    else
      var steps := (j: nat) => PostStep(url, answers(j));
      var r := Attempts(Posting, MaxRetries, HttpPost(url, headers, data, Timeout), steps);
      if |r.rounds| > 0 then
        assert steps(|r.rounds| - 1) == PostStep(url, answers(|r.rounds| - 1));
        r
      else r
  }

  datatype DriverCall = Quit

  /** `Scraper.close()`: quits the driver when there is one. The driver
      attribute is left as it is. */
  function Close(s: Scraper): (calls: seq<DriverCall>)
    ensures calls == [Quit] <==> s.driver.Some?
    ensures calls == [] <==> s.driver.None?
  {
    if s.driver.Some? then [Quit] else []
  }

  // ---------------------------------------------------------------------
  // Properties of the loops

  /** An answer after which `fetch_page` tries again: empty content, a
      handled exception, or in selenium mode a failing second read. */
  predicate Retriable(s: Scraper, a: PageAnswer)
  {
    || (a.Page? && a.content == "")
    || (a.PageThrows? && Handles(s, a.error))
    || (s.kind != "requests" && a.Page? && a.reread.RereadThrows?)
  }

  /** An answer `fetch_page` returns a document for. */
  predicate Serves(s: Scraper, a: PageAnswer)
  {
    a.Page? && |a.content| > 0 && (s.kind == "requests" || !a.reread.RereadThrows?)
  }

  /** The first attempt that serves a document returns it, after exactly as
      many attempts as it took, followed by one jitter sleep; in selenium
      mode the document is what the second `page_source` read gave. */
  lemma FetchReturnsFirstContent(s: Scraper, url: string, answers: nat -> PageAnswer, k: nat)
    requires Fetches(s)
    requires k < MaxRetries
    requires Serves(s, answers(k))
    requires forall j :: 0 <= j < k ==> Retriable(s, answers(j))
    ensures FetchPage(s, url, answers).outcome == Returned(Some(Served(s, answers(k).content, answers(k).reread)))
    ensures |FetchPage(s, url, answers).rounds| == k + 1
    ensures FetchPage(s, url, answers).rounds[k].pauses == [Jitter]
    ensures forall j :: 0 <= j < k ==>
              FetchPage(s, url, answers).rounds[j].pauses == PauseAfter(FetchPolicy(s), PageStep(s, answers(j)))
  {
    var steps := (j: nat) => PageStep(s, answers(j));
    assert forall j :: 0 <= j < k ==> Continues(steps(j));
    if s.kind == "requests" {
      FirstDoneWins(RequestsFetch, MaxRetries, HttpGet(url, UserAgentHeader(s), Proxies(s.proxy), Timeout), steps, k);
    } else {
      FirstDoneWins(BrowserFetch, MaxRetries, BrowserGet(url), steps, k);
    }
  }

  /** Requests mode, every attempt raising a `RequestException`: three
      attempts, a ten-fold backoff after the first two, then None. */
  lemma FetchGivesUpAfterThreeFailures(s: Scraper, url: string, answers: nat -> PageAnswer)
    requires s.kind == "requests"
    requires forall j :: 0 <= j < MaxRetries ==> answers(j).PageThrows? && answers(j).error.IsRequestException()
    ensures var req := HttpGet(url, UserAgentHeader(s), Proxies(s.proxy), Timeout);
      FetchPage(s, url, answers) == Run(Returned(None),
        [Round(req, [Backoff10x]), Round(req, [Backoff10x]), Round(req, [])])
  {
    var req := HttpGet(url, UserAgentHeader(s), Proxies(s.proxy), Timeout);
    var steps := (j: nat) => PageStep(s, answers(j));
    AllCaught(RequestsFetch, MaxRetries, req, steps);
    var r := FetchPage(s, url, answers);
    assert r.rounds[0] == Round(req, [Backoff10x]);
    assert r.rounds[1] == Round(req, [Backoff10x]);
    assert r.rounds[2] == Round(req, []);
  }

  /** Selenium mode, every attempt raising: the sleep between failures is one
      jitter, not ten. */
  lemma BrowserBacksOffByOneJitter(s: Scraper, url: string, answers: nat -> PageAnswer)
    requires s.kind == "selenium" && s.driver.Some?
    requires forall j :: 0 <= j < MaxRetries ==> answers(j).PageThrows?
    ensures FetchPage(s, url, answers) == Run(Returned(None),
        [Round(BrowserGet(url), [Jitter]), Round(BrowserGet(url), [Jitter]), Round(BrowserGet(url), [])])
  {
    var steps := (j: nat) => PageStep(s, answers(j));
    AllCaught(BrowserFetch, MaxRetries, BrowserGet(url), steps);
    var r := FetchPage(s, url, answers);
    assert r.rounds[0] == Round(BrowserGet(url), [Jitter]);
    assert r.rounds[1] == Round(BrowserGet(url), [Jitter]);
    assert r.rounds[2] == Round(BrowserGet(url), []);
  }

  /** Selenium mode, the page loading every time but the second
      `page_source` read raising: each attempt sleeps the jitter before
      returning and then, but for the last, the jitter of the except clause,
      and the method ends with None. */
  lemma RereadFailureSleepsTwice(s: Scraper, url: string, answers: nat -> PageAnswer)
    requires s.kind == "selenium" && s.driver.Some?
    requires forall j :: 0 <= j < MaxRetries ==> answers(j).Page? && |answers(j).content| > 0 && answers(j).reread.RereadThrows?
    ensures FetchPage(s, url, answers) == Run(Returned(None),
        [Round(BrowserGet(url), [Jitter, Jitter]), Round(BrowserGet(url), [Jitter, Jitter]), Round(BrowserGet(url), [Jitter])])
  {
    var steps := (j: nat) => PageStep(s, answers(j));
    assert forall j :: 0 <= j < MaxRetries ==> steps(j).CaughtLate?;
    var r := FetchPage(s, url, answers);
    assert r.rounds[0] == Round(BrowserGet(url), [Jitter, Jitter]);
    assert r.rounds[1] == Round(BrowserGet(url), [Jitter, Jitter]);
    assert r.rounds[2] == Round(BrowserGet(url), [Jitter]);
  }

  /** Empty pages are retried at once, without any sleep, and when every
      page is empty the loop falls through to `return None`. */
  lemma EmptyPagesFallThrough(s: Scraper, url: string, answers: nat -> PageAnswer)
    requires Fetches(s)
    requires forall j :: 0 <= j < MaxRetries ==> answers(j).Page? && answers(j).content == ""
    ensures FetchPage(s, url, answers).outcome == Returned(None)
    ensures |FetchPage(s, url, answers).rounds| == MaxRetries
    ensures forall k :: 0 <= k < MaxRetries ==> FetchPage(s, url, answers).rounds[k].pauses == []
  {
    var steps := (j: nat) => PageStep(s, answers(j));
    if s.kind == "requests" {
      NeverDone(RequestsFetch, MaxRetries, HttpGet(url, UserAgentHeader(s), Proxies(s.proxy), Timeout), steps);
    } else {
      NeverDone(BrowserFetch, MaxRetries, BrowserGet(url), steps);
    }
  }

  /** A failed post: a bad HTTP status or a `RequestException`. */
  predicate PostFailed(a: PostAnswer)
  {
    (a.Reply? && 400 <= a.response.status < 600) || (a.PostThrows? && a.error.IsRequestException())
  }

  /** The first response with a good status is returned at once, with no
      sleep before it. */
  lemma PostReturnsFirstGoodResponse(s: Scraper, url: string, headers: Option<map<string, string>>,
                                     data: Option<map<string, string>>, answers: nat -> PostAnswer, k: nat)
    requires s.kind == "requests"
    requires k < MaxRetries
    requires answers(k).Reply? && !(400 <= answers(k).response.status < 600)
    requires forall j :: 0 <= j < k ==> PostFailed(answers(j))
    ensures PostPage(s, url, headers, data, answers).outcome == Returned(Some(answers(k).response))
    ensures |PostPage(s, url, headers, data, answers).rounds| == k + 1
    ensures PostPage(s, url, headers, data, answers).rounds[k].pauses == []
    ensures forall j :: 0 <= j < k ==>
              PostPage(s, url, headers, data, answers).rounds[j].pauses == PauseAfter(Posting, PostStep(url, answers(j)))
  {
    var steps := (j: nat) => PostStep(url, answers(j));
    assert forall j :: 0 <= j < k ==> Continues(steps(j));
    FirstDoneWins(Posting, MaxRetries, HttpPost(url, headers, data, Timeout), steps, k);
  }

  /** Three failed posts: a ten-fold backoff after the first two, then None. */
  lemma PostGivesUpAfterThreeFailures(s: Scraper, url: string, headers: Option<map<string, string>>,
                                      data: Option<map<string, string>>, answers: nat -> PostAnswer)
    requires s.kind == "requests"
    requires forall j :: 0 <= j < MaxRetries ==> PostFailed(answers(j))
    ensures var req := HttpPost(url, headers, data, Timeout);
      PostPage(s, url, headers, data, answers) == Run(Returned(None),
        [Round(req, [Backoff10x]), Round(req, [Backoff10x]), Round(req, [])])
  {
    var req := HttpPost(url, headers, data, Timeout);
    var steps := (j: nat) => PostStep(url, answers(j));
    AllCaught(Posting, MaxRetries, req, steps);
    var r := PostPage(s, url, headers, data, answers);
    assert r.rounds[0] == Round(req, [Backoff10x]);
    assert r.rounds[1] == Round(req, [Backoff10x]);
    assert r.rounds[2] == Round(req, []);
  }

  /** A scraper built for Selenium quits its browser on `close()`; any other
      scraper has nothing to quit. Since `close()` leaves the driver in place,
      a second call quits again. */
  lemma CloseQuitsOnlyBrowsers(kind: string, proxy: Option<string>, headless: bool, c: UserAgent.Choice)
    requires UserAgent.Valid(c)
    ensures Close(New(kind, proxy, headless, c)) == (if kind == "selenium" then [Quit] else [])
  {
  }

  // ---------------------------------------------------------------------
  // Decorated entry points

  /** The `self` argument the decorator sees. */
  const SelfArg: Logging.Arg := Logging.Arg("Scraper", {"fetch_page", "post_page", "close", "user_agent_header"})

  function AsCall<T, R>(r: Run<T, R>): Logging.Call<Option<T>>
  {
    match r.outcome
    case Returned(v) => Logging.Returns(v, [])
    case Raised(e) => Logging.Throws(e, [])
  }

  /** `post_page` as callers see it, through `@log_decorator`. */
  function LoggedPostPage(l: Logging.Logger, s: Scraper, url: string, headers: Option<map<string, string>>,
                          data: Option<map<string, string>>, answers: nat -> PostAnswer): (r: Logging.Traced<Option<Response>>)
    ensures PostPage(s, url, headers, data, answers).outcome.Raised? <==> r.completion.Abrupt?
    ensures var out := PostPage(s, url, headers, data, answers).outcome;
      && (out.Returned? ==> r.completion == Logging.Normal(out.value))
      && (out.Raised? ==> r.completion == Logging.Abrupt(out.error))
    ensures var out := PostPage(s, url, headers, data, answers).outcome;
      l.threshold == Logging.Info ==>
        r.logger.entries == l.entries + [Logging.Entry(Logging.Info, Logging.StartMessage("Scraper.post_page"))]
          + [if out.Returned? then Logging.Entry(Logging.Info, Logging.FinishMessage("Scraper.post_page"))
             else Logging.Entry(Logging.Error, Logging.ErrorMessage("Scraper.post_page", out.error))]
  {
    var call := AsCall(PostPage(s, url, headers, data, answers));
    assert call.logged == [];
    assert Logging.QualifiedName("post_page", [SelfArg]) == "Scraper.post_page";
    Logging.Decorated(l, "post_page", [SelfArg], call)
  }

  /** `fetch_page` as callers see it, through `@log_decorator`: the result
      or the exception passes through, and a configured logger records the
      start and the finish under the name `Scraper.fetch_page`. */
  function LoggedFetchPage(l: Logging.Logger, s: Scraper, url: string, answers: nat -> PageAnswer): (r: Logging.Traced<Option<Document>>)
    ensures var out := FetchPage(s, url, answers).outcome;
      && (out.Returned? ==> r.completion == Logging.Normal(out.value))
      && (out.Raised? ==> r.completion == Logging.Abrupt(out.error))
    ensures var out := FetchPage(s, url, answers).outcome;
      l.threshold == Logging.Info && out.Returned? ==>
        r.logger.entries == l.entries + [Logging.Entry(Logging.Info, Logging.StartMessage("Scraper.fetch_page")),
                                         Logging.Entry(Logging.Info, Logging.FinishMessage("Scraper.fetch_page"))]
    ensures var out := FetchPage(s, url, answers).outcome;
      l.threshold == Logging.Info && out.Raised? ==>
        r.logger.entries == l.entries + [Logging.Entry(Logging.Info, Logging.StartMessage("Scraper.fetch_page")),
                                         Logging.Entry(Logging.Error, Logging.ErrorMessage("Scraper.fetch_page", out.error))]
  {
    var call := AsCall(FetchPage(s, url, answers));
    assert call.logged == [];
    assert Logging.QualifiedName("fetch_page", [SelfArg]) == "Scraper.fetch_page";
    Logging.Decorated(l, "fetch_page", [SelfArg], call)
  }

  /** Posting from a Selenium scraper through the decorator: the start entry,
      then the error entry naming `Scraper.post_page`, and the
      NotImplementedError re-raised, without any request sent. */
  lemma LoggedPostOutsideRequests(l: Logging.Logger, s: Scraper, url: string, headers: Option<map<string, string>>,
                                  data: Option<map<string, string>>, answers: nat -> PostAnswer)
    requires s.kind != "requests"
    requires l.threshold == Logging.Info
    ensures var r := LoggedPostPage(l, s, url, headers, data, answers);
      && r.completion == Logging.Abrupt(NotImplemented(PostOnlyWithRequests))
      && r.logger.entries == l.entries + [
           Logging.Entry(Logging.Info, Logging.StartMessage("Scraper.post_page")),
           Logging.Entry(Logging.Error, Logging.ErrorMessage("Scraper.post_page", NotImplemented(PostOnlyWithRequests)))]
  {
    assert Logging.QualifiedName("post_page", [SelfArg]) == "Scraper.post_page";
  }
}

=== FILE: sql.dfy ===
/** The SQL text the write methods of `MySQLDatabase` build
    (src/models/mysql_database.py:53-55, 70-72, 84-87, 100-103):

        <VERB> INTO <table> (<k1>, ..., <kn>) VALUES (%s, ..., %s)

    with one `%s` per column. The values travel separately as query
    parameters. A reader for the same shape shows what the text holds. */
module Sql {
  import opened Common
  import opened Text

  const Insert: string := "INSERT"
  const Replace: string := "REPLACE"

  /** `', '.join(['%s'] * n)`: reads back as `n` copies of `%s`, and holds
      no closing parenthesis. */
  function Placeholders(n: nat): (marks: string)
    ensures ')' !in marks
    ensures ReadList(marks) == Repeat("%s", n)
  {
    JoinAvoids(Repeat("%s", n), ')');
    ReadListJoin(Repeat("%s", n));
    Join(Repeat("%s", n))
  }

  /** The f-string shared by the four write methods. */
  function Statement(verb: string, table: string, columns: seq<string>): string
  {
    verb + " INTO " + table + " (" + Join(columns) + ") VALUES (" + Placeholders(|columns|) + ")"
  }

  /** What a statement names: its table, its columns and its placeholders. */
  datatype Parsed = Parsed(table: string, columns: seq<string>, placeholders: seq<string>)

  /** Reads a `", "`-joined list; the empty text is the empty list. */
  function ReadList(s: string): (xs: seq<string>)
    ensures s == "" <==> xs == []
  {
    if s == "" then [] else Split(s)
  }

  /** The part after the table name: `(<columns>) VALUES (<placeholders>)`. */
  function ParseLists(s: string): Option<(string, string)>
  {
    match After(s, "(")
    case None => None
    case Some(r1) =>
      match Cut(r1, ')')
      case None => None
      case Some((cols, r2)) =>
        match After(r2, " VALUES (")
        case None => None
        case Some(r3) =>
          match Cut(r3, ')')
          case None => None
          case Some((marks, r4)) => if r4 == "" then Some((cols, marks)) else None
  }

  /** Reads a statement with the given verb back into its parts. */
  function Parse(verb: string, sql: string): Option<Parsed>
  {
    match After(sql, verb + " INTO ")
    case None => None
    case Some(r1) =>
      match Cut(r1, ' ')
      case None => None
      case Some((table, r2)) =>
        match ParseLists(r2)
        case None => None
        case Some((cols, marks)) => Some(Parsed(table, ReadList(cols), ReadList(marks)))
  }

  /** A column name the reader can find again: non-empty, without the list
      separator and without the closing parenthesis. */
  predicate SafeName(k: string)
  {
    |k| > 0 && ',' !in k && ')' !in k
  }

  lemma ParseListsOf(cols: string, marks: string)
    requires ')' !in cols && ')' !in marks
    ensures ParseLists("(" + cols + ") VALUES (" + marks + ")") == Some((cols, marks))
  {
    var r3 := marks + [')'] + "";
    var r2 := " VALUES (" + r3;
    var r1 := cols + [')'] + r2;
    assert "(" + cols + ") VALUES (" + marks + ")" == "(" + r1;
    AfterPrefix("(", r1);
    CutAt(cols, ')', r2);
    AfterPrefix(" VALUES (", r3);
    CutAt(marks, ')', "");
  }

  /** The joined list is at least as long as its first element. */
  lemma JoinStartsWithHead(xs: seq<string>)
    requires |xs| >= 1
    ensures |Join(xs)| >= |xs[0]|
  {
  }

  /** A list of non-empty, comma-free names reads back as itself. */
  lemma ReadListJoin(xs: seq<string>)
    requires forall i :: 0 <= i < |xs| ==> |xs[i]| > 0 && ',' !in xs[i]
    ensures ReadList(Join(xs)) == xs
  {
    if |xs| >= 1 {
      JoinStartsWithHead(xs);
      SplitJoin(xs);
    }
  }

  /** The statement names its table, lists the record's columns in their
      order, and carries exactly one placeholder per column. */
  lemma {:induction false} StatementRoundTrip(verb: string, table: string, columns: seq<string>)
    requires ' ' !in table
    requires forall i :: 0 <= i < |columns| ==> SafeName(columns[i])
    ensures Parse(verb, Statement(verb, table, columns)) == Some(Parsed(table, columns, Repeat("%s", |columns|)))
  {
    var cols := Join(columns);
    var marks := Placeholders(|columns|);
    JoinAvoids(columns, ')');
    ReadListJoin(columns);
    var r2 := "(" + cols + ") VALUES (" + marks + ")";
    var r1 := table + [' '] + r2;
    assert Statement(verb, table, columns) == (verb + " INTO ") + r1;
    AfterPrefix(verb + " INTO ", r1);
    CutAt(table, ' ', r2);
    ParseListsOf(cols, marks);
  }

  /** Statements for different column lists differ, so the text fixes the
      columns; in particular one placeholder per column is never confused. */
  lemma StatementDeterminesColumns(verb: string, table: string, a: seq<string>, b: seq<string>)
    requires ' ' !in table
    requires forall i :: 0 <= i < |a| ==> SafeName(a[i])
    requires forall i :: 0 <= i < |b| ==> SafeName(b[i])
    requires Statement(verb, table, a) == Statement(verb, table, b)
    ensures a == b
  {
    StatementRoundTrip(verb, table, a);
    StatementRoundTrip(verb, table, b);
  }
}

=== FILE: text.dfy ===
/** String helpers that mirror the Python string operations the core relies on:
    `', '.join(...)`, `['%s'] * n`, `str.strip()`, and the splitting needed to
    read a joined list back. */
module Text {
  import opened Common

  /** Position of the first occurrence of `c` in `s`. */
  function IndexOf(s: string, c: char): (k: nat)
    requires c in s
    ensures k < |s| && s[k] == c
    ensures c !in s[..k]
  {
    if s[0] == c then 0
    else
      var k := IndexOf(s[1..], c) + 1;
      assert s[..k] == [s[0]] + s[1..][..k - 1];
      k
  }

  /** Splits `s` at the first `c`: the text before it and the text after it. */
  function Cut(s: string, c: char): (r: Option<(string, string)>)
    ensures r.None? <==> c !in s
    ensures r.Some? ==> s == r.value.0 + [c] + r.value.1 && c !in r.value.0
  {
    if c in s then
      var k := IndexOf(s, c);
      assert s == s[..k] + [c] + s[k + 1..];
      Some((s[..k], s[k + 1..]))
    else None
  }

  lemma {:induction false} IndexOfFirst(a: string, c: char, b: string)
    requires c !in a
    ensures IndexOf(a + [c] + b, c) == |a|
    decreases |a|
  {
    var s := a + [c] + b;
    if a == [] {
      assert s[0] == c;
    } else {
      assert s[0] == a[0];
      assert s[1..] == a[1..] + [c] + b;
      IndexOfFirst(a[1..], c, b);
    }
  }

  /** Cutting `a + [c] + b` at `c` gives back `a` and `b` when `a` holds no `c`. */
  lemma CutAt(a: string, c: char, b: string)
    requires c !in a
    ensures Cut(a + [c] + b, c) == Some((a, b))
  {
    var s := a + [c] + b;
    IndexOfFirst(a, c, b);
    assert s[..|a|] == a;
    assert s[|a| + 1..] == b;
  }

  /** `s` without the leading `prefix`, if it starts with it. */
  function After(s: string, prefix: string): (r: Option<string>)
    ensures r.Some? ==> s == prefix + r.value
  {
    if |prefix| <= |s| && s[..|prefix|] == prefix then Some(s[|prefix|..]) else None
  }

  /** A text that starts with `prefix` gives back what follows it. */
  lemma AfterPrefix(prefix: string, x: string)
    ensures After(prefix + x, prefix) == Some(x)
  {
    assert (prefix + x)[..|prefix|] == prefix;
    assert (prefix + x)[|prefix|..] == x;
  }

  /** Python's `', '.join(xs)`. */
  function Join(xs: seq<string>): string
  {
    if |xs| == 0 then ""
    else if |xs| == 1 then xs[0]
    else xs[0] + ", " + Join(xs[1..])
  }

  /** Drops one leading blank, the second character of the `", "` separator. */
  function DropBlank(s: string): (r: string)
    ensures |r| <= |s|
  {
    if |s| > 0 && s[0] == ' ' then s[1..] else s
  }

  /** Reads back a list joined with `", "`: cuts at every comma and drops the
      blank that follows it. */
  function Split(s: string): (xs: seq<string>)
    ensures |xs| >= 1
    ensures forall i :: 0 <= i < |xs| ==> ',' !in xs[i]
    decreases |s|
  {
    match Cut(s, ',')
    case None => [s]
    case Some((head, tail)) => [head] + Split(DropBlank(tail))
  }

  /** No element contains a comma. */
  predicate CommaFree(xs: seq<string>)
  {
    forall i :: 0 <= i < |xs| ==> ',' !in xs[i]
  }

  /** One step of `Split`: a comma-free head followed by the separator. */
  lemma SplitStep(head: string, tail: string)
    requires ',' !in head
    ensures Split(head + ", " + tail) == [head] + Split(tail)
  {
    assert head + ", " + tail == head + [','] + (" " + tail);
    CutAt(head, ',', " " + tail);
    assert DropBlank(" " + tail) == tail;
  }

  /** Splitting undoes joining, for at least one comma-free element. */
  lemma {:induction false} SplitJoin(xs: seq<string>)
    requires |xs| >= 1
    requires CommaFree(xs)
    ensures Split(Join(xs)) == xs
    decreases |xs|
  {
    if |xs| == 1 {
      assert Join(xs) == xs[0];
    } else {
      SplitStep(xs[0], Join(xs[1..]));
      SplitJoin(xs[1..]);
      assert xs == [xs[0]] + xs[1..];
    }
  }

  /** A character that is neither part of the separator nor of any element
      does not occur in the joined text. */
  lemma {:induction false} JoinAvoids(xs: seq<string>, c: char)
    requires c != ',' && c != ' '
    requires forall i :: 0 <= i < |xs| ==> c !in xs[i]
    ensures c !in Join(xs)
    decreases |xs|
  {
    if |xs| >= 2 {
      JoinAvoids(xs[1..], c);
      assert Join(xs) == xs[0] + ", " + Join(xs[1..]);
    }
  }

  /** Python's `[x] * n`. */
  function Repeat<T>(x: T, n: nat): (r: seq<T>)
    ensures |r| == n
    ensures forall i :: 0 <= i < n ==> r[i] == x
  {
    seq(n, _ => x)
  }

  /** The characters `str.isspace()` accepts, the ones `str.strip()` removes. */
  predicate IsSpace(c: char)
  {
    || c == ' ' || c == '\t' || c == '\n' || c == '\r'
    || c == '\U{0B}' || c == '\U{0C}'
    || ('\U{1C}' <= c <= '\U{1F}')
    || c == '\U{85}' || c == '\U{A0}' || c == '\U{1680}'
    || ('\U{2000}' <= c <= '\U{200A}')
    || c == '\U{2028}' || c == '\U{2029}' || c == '\U{202F}' || c == '\U{205F}' || c == '\U{3000}'
  }

  /** The end of the run of whitespace that starts at `i`: the first
      non-space position at or after `i`, or `|s|`. */
  function SpaceRunEnd(s: string, i: nat): (n: nat)
    requires i <= |s|
    ensures i <= n <= |s|
    ensures forall k :: i <= k < n ==> IsSpace(s[k])
    ensures n < |s| ==> !IsSpace(s[n])
    decreases |s| - i
  {
    if i < |s| && IsSpace(s[i]) then SpaceRunEnd(s, i + 1) else i
  }

  /** The start of the run of whitespace that ends at `j`: one past the last
      non-space position before `j`, or 0. */
  function SpaceRunStart(s: string, j: nat): (n: nat)
    requires j <= |s|
    ensures n <= j
    ensures forall k :: n <= k < j ==> IsSpace(s[k])
    ensures n > 0 ==> !IsSpace(s[n - 1])
    decreases j
  {
    if j > 0 && IsSpace(s[j - 1]) then SpaceRunStart(s, j - 1) else j
  }

  /** `r` is `s` with the `i` characters before it and everything after it
      being whitespace. */
  predicate TrimmedFrom(s: string, r: string, i: nat)
  {
    && i + |r| <= |s|
    && r == s[i..i + |r|]
    && (forall k :: 0 <= k < i ==> IsSpace(s[k]))
    && (forall k :: i + |r| <= k < |s| ==> IsSpace(s[k]))
  }

  /** Python's `str.strip()` with no argument: skip the leading whitespace,
      skip the trailing whitespace, keep what lies between. The result is the
      longest inner part of `s` that neither starts nor ends with
      whitespace. */
  function Strip(s: string): (r: string)
    ensures |r| > 0 ==> !IsSpace(r[0]) && !IsSpace(r[|r| - 1])
    ensures TrimmedFrom(s, r, SpaceRunEnd(s, 0))
  {
    var i := SpaceRunEnd(s, 0);
    var j := SpaceRunStart(s, |s|);
    if j <= i then [] else s[i..j]
  }

  /** Stripping twice changes nothing more than stripping once. */
  lemma StripIdempotent(s: string)
    ensures Strip(Strip(s)) == Strip(s)
  {
    var r := Strip(s);
    if |r| > 0 {
      assert SpaceRunEnd(r, 0) == 0;
      assert SpaceRunStart(r, |r|) == |r|;
      assert r[0..|r|] == r;
    }
  }
}

=== FILE: user_agent.dfy ===
/** `Scraper._random_user_agent` (src/models/scraper.py:58-110): the user
    agent is drawn from a fixed catalog by a chain of `random.choice` calls.
    The draws become index parameters, so the generator is a function of the
    choices made. */
module UserAgent {
  import opened Common
  import opened Text

  datatype Os = Macintosh | Windows | X11
  datatype Browser = Chrome | Firefox | Safari | Edge

  /** The indices `random.choice` picked, in the order the source draws them. */
  datatype Choice = Choice(os: nat, osVersion: nat, browser: nat, version: nat)

  /** What a choice resolves to. The browser itself never reaches the string:
      only its version does. */
  datatype Profile = Profile(os: Os, osVersion: string, browser: Browser, browserVersion: string)

  const Systems: seq<Os> := [Macintosh, Windows, X11]

  const ChromeVersions: seq<string> := ["83.0.4103.97", "84.0.4147.105"]
  const FirefoxVersions: seq<string> := ["77.0", "78.0"]
  const MacSafariVersions: seq<string> := ["13.1.1", "14.0"]
  const WindowsSafariVersions: seq<string> := ["5.0", "5.1"]
  const EdgeVersions: seq<string> := ["83.0.478.61", "84.0.522.40"]

  function OsName(os: Os): string
  {
    match os
    case Macintosh => "Macintosh"
    case Windows => "Windows"
    case X11 => "X11"
  }

  function OsVersions(os: Os): seq<string>
  {
    match os
    case Macintosh => ["10_14_6", "10_15_7"]
    case Windows => ["NT 6.1", "NT 6.2", "NT 6.3", "NT 10.0"]
    case X11 => ["Ubuntu; Linux x86_64", "X11; Linux x86_64"]
  }

  function Browsers(os: Os): seq<Browser>
  {
    match os
    case Macintosh => [Chrome, Firefox, Safari]
    case Windows => [Chrome, Firefox, Safari, Edge]
    case X11 => [Chrome, Firefox]
  }

  /** The version list for a browser; each `else` branch of the source is the
      wildcard case here. */
  function BrowserVersions(os: Os, b: Browser): seq<string>
  {
    match os
    case Macintosh =>
      (match b
       case Chrome => ChromeVersions
       case Firefox => FirefoxVersions
       case _ => MacSafariVersions)
    case Windows =>
      (match b
       case Chrome => ChromeVersions
       case Firefox => FirefoxVersions
       case Edge => EdgeVersions
       case _ => WindowsSafariVersions)
    case X11 =>
      (match b
       case Chrome => ChromeVersions
       case _ => FirefoxVersions)
  }

  /** The choices `random.choice` can return: every index is within its list. */
  predicate Valid(c: Choice)
  {
    && c.os < |Systems|
    && c.osVersion < |OsVersions(Systems[c.os])|
    && c.browser < |Browsers(Systems[c.os])|
    && c.version < |BrowserVersions(Systems[c.os], Browsers(Systems[c.os])[c.browser])|
  }

  /** The catalog entry a valid choice selects. */
  function Pick(c: Choice): (p: Profile)
    requires Valid(c)
    ensures p.os in Systems
    ensures p.osVersion in OsVersions(p.os)
    ensures p.browser in Browsers(p.os)
    ensures p.browserVersion in BrowserVersions(p.os, p.browser)
  {
    var os := Systems[c.os];
    var b := Browsers(os)[c.browser];
    Profile(os, OsVersions(os)[c.osVersion], b, BrowserVersions(os, b)[c.version])
  }

  const Head: string := "Mozilla/5.0 ("
  const EngineText: string := " AppleWebKit/537.36 (KHTML, like Gecko) Chrome/"
  const Engine: string := ")" + EngineText
  const Tail: string := " Safari/537.36"

  /** The f-string of the source's return statement. */
  function Format(osName: string, osVersion: string, browserVersion: string): string
  {
    Head + osName + "; " + osVersion + Engine + browserVersion + Tail
  }

  /** `_random_user_agent()` with its random draws given as `c`: the string
      reads back as the OS, OS version and browser version that were drawn. */
  function RandomUserAgent(c: Choice): (ua: string)
    requires Valid(c)
    ensures Parse(ua) == Some(Fields(OsName(Pick(c).os), Pick(c).osVersion, Pick(c).browserVersion))
  {
    var p := Pick(c);
    CatalogParses(c);
    ParseFormat(OsName(p.os), p.osVersion, p.browserVersion);
    Format(OsName(p.os), p.osVersion, p.browserVersion)
  }

  /** The three variable parts of a user-agent string. */
  datatype Fields = Fields(osName: string, osVersion: string, browserVersion: string)

  /** The text between the fixed head and the fixed tail. */
  function Inside(ua: string): (r: Option<string>)
    ensures r.Some? ==> ua == Head + r.value + Tail
  {
    if |ua| < |Head| + |Tail| || ua[..|Head|] != Head || ua[|ua| - |Tail|..] != Tail then None
    else
      var m := ua[|Head|..|ua| - |Tail|];
      assert ua == ua[..|Head|] + m + ua[|ua| - |Tail|..];
      Some(m)
  }

  lemma InsideFrame(m: string)
    ensures Inside(Head + m + Tail) == Some(m)
  {
    var ua := Head + m + Tail;
    assert ua[..|Head|] == Head;
    assert ua[|ua| - |Tail|..] == Tail;
    assert ua[|Head|..|ua| - |Tail|] == m;
  }

  /** Splits the inner text: the OS name runs to the first `;`, the OS
      version from the following blank to the first `)`, and the browser
      version follows the engine text. */
  function Fields3(m: string): Option<Fields>
  {
    match Cut(m, ';')
    case None => None
    case Some((osName, afterName)) =>
      match After(afterName, " ")
      case None => None
      case Some(versions) =>
        match Cut(versions, ')')
        case None => None
        case Some((osVersion, rest)) =>
          match After(rest, EngineText)
          case None => None
          case Some(browserVersion) => Some(Fields(osName, osVersion, browserVersion))
  }

  /** Reads the variable parts back out of a string of the generated shape. */
  function Parse(ua: string): Option<Fields>
  {
    match Inside(ua)
    case None => None
    case Some(m) => Fields3(m)
  }

  lemma Fields3Of(osName: string, osVersion: string, browserVersion: string)
    requires ';' !in osName
    requires ')' !in osVersion
    ensures Fields3(osName + "; " + osVersion + Engine + browserVersion)
              == Some(Fields(osName, osVersion, browserVersion))
  {
    var rest := EngineText + browserVersion;
    var versions := osVersion + [')'] + rest;
    var afterName := " " + versions;
    assert osName + "; " + osVersion + Engine + browserVersion == osName + [';'] + afterName;
    CutAt(osName, ';', afterName);
    AfterPrefix(" ", versions);
    CutAt(osVersion, ')', rest);
    AfterPrefix(EngineText, browserVersion);
  }

  /** The formatted string is the fixed head, the inner text and the fixed
      tail. */
  lemma FormatFrame(osName: string, osVersion: string, browserVersion: string)
    ensures Format(osName, osVersion, browserVersion) == Head + (osName + "; " + osVersion + Engine + browserVersion) + Tail
  {
    var a := Head + osName;
    var b := a + "; ";
    var c := b + osVersion;
    var d := c + Engine;
    var e := d + browserVersion;
    assert a == Head + osName;
    assert b == Head + (osName + "; ");
    assert c == Head + (osName + "; " + osVersion);
    assert d == Head + (osName + "; " + osVersion + Engine);
    assert e == Head + (osName + "; " + osVersion + Engine + browserVersion);
  }

  /** Parsing a formatted string gives back its parts, provided the OS name
      holds no `;` and the OS version no `)`. */
  lemma ParseFormat(osName: string, osVersion: string, browserVersion: string)
    requires ';' !in osName
    requires ')' !in osVersion
    ensures Parse(Format(osName, osVersion, browserVersion)) == Some(Fields(osName, osVersion, browserVersion))
  {
    var m := osName + "; " + osVersion + Engine + browserVersion;
    FormatFrame(osName, osVersion, browserVersion);
    InsideFrame(m);
    Fields3Of(osName, osVersion, browserVersion);
  }

  /** No OS name holds a `;`. */
  lemma OsNameReadable(os: Os)
    ensures ';' !in OsName(os)
  {
    match os
    case Macintosh => assert OsName(os) == ['M', 'a', 'c', 'i', 'n', 't', 'o', 's', 'h'];
    case Windows => assert OsName(os) == ['W', 'i', 'n', 'd', 'o', 'w', 's'];
    case X11 => assert OsName(os) == ['X', '1', '1'];
  }

  /** No OS version holds a `)`. */
  lemma OsVersionReadable(os: Os, i: nat)
    requires i < |OsVersions(os)|
    ensures ')' !in OsVersions(os)[i]
  {
    var v := OsVersions(os)[i];
    match os
    case Macintosh =>
      assert v == "10_14_6" || v == "10_15_7";
    case Windows =>
      assert v == "NT 6.1" || v == "NT 6.2" || v == "NT 6.3" || v == "NT 10.0";
    case X11 =>
      assert v == "Ubuntu; Linux x86_64" || v == "X11; Linux x86_64";
  }

  /** Every catalog entry can be read back: the OS names carry no `;` and the
      OS versions no `)`. */
  lemma CatalogParses(c: Choice)
    requires Valid(c)
    ensures ';' !in OsName(Pick(c).os)
    ensures ')' !in Pick(c).osVersion
  {
    OsNameReadable(Systems[c.os]);
    OsVersionReadable(Systems[c.os], c.osVersion);
  }

  /** The generated user agent always has the fixed shape, with an OS and an
      OS version from the catalog and a browser version from that OS and
      browser's list. */
  lemma UserAgentShape(c: Choice)
    requires Valid(c)
    ensures var f := Parse(RandomUserAgent(c));
      && f.Some?
      && exists os :: os in Systems && f.value.osName == OsName(os)
           && f.value.osVersion in OsVersions(os)
           && exists b :: b in Browsers(os) && f.value.browserVersion in BrowserVersions(os, b)
  {
    var p := Pick(c);
    CatalogParses(c);
    ParseFormat(OsName(p.os), p.osVersion, p.browserVersion);
  }

  /** Edge is offered only under Windows, and its versions are found in no
      other browser's list, so an Edge version in the string means Windows. */
  lemma EdgeOnlyUnderWindows(c: Choice)
    requires Valid(c)
    ensures Pick(c).browser == Edge ==> Pick(c).os == Windows
    ensures Pick(c).browserVersion in EdgeVersions ==> Pick(c).os == Windows && Pick(c).browser == Edge
  {
    var os := Systems[c.os];
    var b := Browsers(os)[c.browser];
    assert forall v :: v in EdgeVersions ==>
      (v !in ChromeVersions && v !in FirefoxVersions && v !in MacSafariVersions && v !in WindowsSafariVersions);
  }
}
